=== FILE: README.md ===
# envfetch core, modelled in Dafny

envfetch is a command-line tool that lists, reads, sets, appends to, deletes
and exports environment variables. It can also make a variable outlast the
process by rewriting the shell start-up file (`~/.bashrc`), and it has a
full-screen list view. This project models the pure logic under that I/O
and proves properties of it:

- `common.dfy` (`Common`): `Option`, `Result`, the error kinds, the
  environment as a `map<string, string>`, and an `Effect` (the environment
  afterwards plus the status returned). It also holds the subsequence
  predicate and its lemmas.
- `text.dfy` (`Text`): the Rust string operations the code relies on, with
  their edge cases: `find` (leftmost match), `lines` (drops one `\r` before
  each `\n` and keeps a final unterminated piece), `trim`, `is_whitespace`
  (the Unicode White_Space set), `replace` (left to right, no overlap),
  `join`, `to_lowercase` and `String::len` (UTF-8 bytes).
- `utils.dfy` (`Utils`): the two-rule variable-name check and the
  case-insensitive, strict-threshold, order-preserving similarity filter.
  The similarity score is a function parameter.
- `env_ops.dfy` (`EnvOps`): `validate_env_var`, `find_similar_vars`, and the
  start-up file rewrite. This rewrite deletes every `export KEY=` assignment,
  drops whitespace-only lines and appends `export KEY="VALUE"`. The file
  before the call is a parameter: missing, unreadable or readable.
- `interactive.dfy` (`Interactive`): the list screen's state and its key
  handler. The handler moves a clamped cursor, a vertical scroll offset and
  a horizontal offset into the selected value. It also reloads from a
  snapshot (a parameter) and exits.
- `variables.dfy` (`Variables`): `print_env` placeholder substitution and
  the process-scope `set_variable`, `delete_variable`, `update_variable` and
  `find_variable`.
- `commands.dfy` (`Commands`): `get`, `set`, `add`, `delete` and `export`
  over an explicit environment, plus the Print and Get branches of
  `run_command`.

The source files modelled here come from different revisions. For example,
`src/commands.rs` calls a three-argument `set_variable`, but `src/variables.rs`
declares four parameters. Each function is modelled from its own body. Where
one file calls into another, the call is modelled by the callee's
non-global path, with no child process.

Some consequences of the code as written are proved. In the start-up file
rewrite, a cut starts at the match, not at the start of its line. Text before
the match stays and is joined to the following line (`EnvOps.CutKeepsLineHead`).
So in `# export K=1` followed by `export B=2`, removing K leaves the `#` in
front of B's assignment. Renaming a variable to a key that `set_variable`
refuses still deletes the old key (`Variables.UpdateVariable`). Adding an
empty suffix to an unset variable creates it with the empty value
(`Commands.AddEmptySuffix`).

## Model

| member | source | states |
|---|---|---|
| `Utils.ValidateVarName` | src/utils.rs:30-38 | A name is accepted exactly when it is non-empty and has no space. The empty name gets the "cannot be empty" message, checked first. A name with a space gets the "cannot contain spaces" message. |
| `Utils.ValidatorExamples` | src/utils.rs:56-97 | The names from the unit tests: `_HIDDEN`, `A` and `MY_VAR_123` pass. Leading, trailing and repeated spaces fail with the spaces message. "" fails with the empty message. |
| `Utils.FindSimilarString` | src/utils.rs:41-50 | The result is a subsequence of the candidates, so input order is kept. Each name occurs as often as in the input when its lower-cased score is strictly above the threshold, and not at all otherwise. |
| `Utils.SimilarMembership` | src/utils.rs:44-47 | A name is in the result if and only if it is a candidate whose lower-cased score is strictly above the threshold. |
| `Utils.ExactMatchKept` | src/utils.rs:99-104 | A candidate equal to the target up to case is kept, for any score that rates equal strings 1, at any threshold below 1. |
| `Utils.CaseInsensitiveExample` | src/utils.rs:106-111 | Target "path" against PATH, HOME and USER at 0.8 gives exactly ["PATH"], when HOME and USER score at most 0.8. |
| `Utils.NoMatchIsEmpty` | src/utils.rs:113-118 | When no candidate passes, the result is empty. |
| `EnvOps.FindSimilarVars` | src/env_ops.rs:9-27 | None if and only if no name scores strictly above 0.6 case-insensitively. Otherwise Some of the non-empty filtered list, in environment order. |
| `EnvOps.ValidateEnvVar` | src/env_ops.rs:77-88 | Ok if and only if the key has no space and a given value has no "==". A key with a space gets the spaces message first. An empty key and an absent value pass. |
| `EnvOps.DeleteLineAt` | src/env_ops.rs:115-116 | One cut keeps everything before the match position and removes a non-empty piece from there. The piece ends at the first `\n` after the match, or runs to the end when there is none. Nothing after the piece changes. |
| `EnvOps.StripAsWritten` | src/env_ops.rs:113-119 | The removal loop as written, with None for non-termination. Whenever it ends, it gives the same content as the corrected loop. |
| `EnvOps.StripAssignments` | src/env_ops.rs:113-119 | The corrected loop always ends. Its result has no occurrence of the pattern, never grows, adds no new characters, and is the input when the pattern is absent. |
| `EnvOps.Normalise` | src/env_ops.rs:121-125 | The clean-up always ends in `\n`. It is exactly "\n" if and only if every line of the input is whitespace-only. |
| `EnvOps.RemoveExistingVar` | src/env_ops.rs:106-126 | The rewritten content always ends in `\n`. |
| `EnvOps.SetPermanentEnv` | src/env_ops.rs:61-75 | Fails if and only if the input check fails, with its message, whatever the file holds. Otherwise the content written is the old content (the header for a missing file, "" for an unreadable one) with the key's assignments removed and blank lines dropped, followed by `export KEY="VALUE"` when a value is given. It always ends in `\n`. |
| `EnvOps.SetWithoutAssignment` | src/env_ops.rs:61-75 | When the file holds no assignment of the key, a set or unset writes the cleaned-up old content followed by the new line, if any. |
| `EnvOps.SetKeepsOtherLines` | src/env_ops.rs:61-75 | A set or unset keeps the rest of the file. For content without `\r` and without an assignment of the key, the text before the appended line splits into exactly the non-blank old lines, in order. It is "\n" when there are none. |
| `EnvOps.AsWrittenTerminates` | src/env_ops.rs:114-118 | The loop as written ends, and agrees with the corrected loop, whenever the content ends in `\n` or has no match. |
| `EnvOps.AsWrittenHangs` | src/env_ops.rs:114-118 | The loop as written never ends when the pattern occurs in content that has no `\n` at all. |
| `EnvOps.HangExample` | src/env_ops.rs:114-118 | For the file "export K=1" with no final newline, the loop for K never ends. The corrected loop empties the file. |
| `EnvOps.RemoveAsWritten` | src/env_ops.rs:106-126 | The rewrite with its three removal loops as written gives None when one of them never ends. Whenever it ends, its result is the corrected rewrite. |
| `EnvOps.RemoveAsWrittenTerminates` | src/env_ops.rs:106-126 | On content ending in `\n`, the rewrite as written ends and equals the corrected rewrite. |
| `EnvOps.WrittenContentNeverHangs` | src/env_ops.rs:61-75 | Content that a set or unset wrote never hangs a later rewrite for any key. |
| `EnvOps.NormaliseLines` | src/env_ops.rs:121-125 | When no line ends in `\r`, splitting the clean-up's output gives back exactly the non-blank input lines, in order. When there are none, the output is "\n". |
| `EnvOps.NormaliseIdempotent` | src/env_ops.rs:121-125 | When no line ends in `\r`, cleaning up twice gives the same as cleaning up once. |
| `EnvOps.NormaliseCarriageReturns` | src/env_ops.rs:121-125 | Without that condition, a second clean-up can change the content: for any non-blank line l without `\n`, "l\r\r\n" becomes "l\r\n", which then becomes "l\n". |
| `EnvOps.NormaliseOneLine` | src/env_ops.rs:121-125 | A single non-blank line ending in `\n` is kept, minus one trailing `\r`. |
| `EnvOps.NormaliseKeepsAbsence` | src/env_ops.rs:121-125 | For a pattern without `\n`, the clean-up never creates an occurrence. |
| `EnvOps.QuotedPatternsRedundant` | src/env_ops.rs:107-119 | The `="` and `='` passes never change anything after the `=` pass. The rewrite is the clean-up of the first pass alone. |
| `EnvOps.RemoveLeavesNoAssignment` | src/env_ops.rs:106-126 | For a key without `\n`, none of the three assignment forms of the key remains after the rewrite. A key with `\n` is not covered (see `EnvOps.NewlineKeyReforms`). |
| `EnvOps.NormaliseDropsBlankMiddle` | src/env_ops.rs:121-125 | Of three newline-terminated lines, a whitespace-only middle one is dropped. Outer lines that do not end in `\r` are kept as they are. |
| `EnvOps.UnsetCanReform` | src/env_ops.rs:106-126 | Take a key without spaces and content with no `export KEY=`. If removing a blank line from the content forms `export KEY=`, then unsetting the key writes content holding `export KEY=`. |
| `EnvOps.NewlineKeyReforms` | src/env_ops.rs:61-88 | The key "A\n" passes the input check. Unsetting it in "export A\n \n=x\n", which holds no `export A\n=`, writes content that holds one. |
| `EnvOps.RemoveWithoutAssignment` | src/env_ops.rs:106-126 | Content with no assignment of the key is only cleaned up. |
| `EnvOps.RemoveIdempotent` | src/env_ops.rs:106-126 | For content without `\r` and a key without `\n`, rewriting twice gives the same as rewriting once. |
| `EnvOps.AssignLineOccurrences` | src/env_ops.rs:69-71 | In the appended line, the prefix `export KEY=` occurs only at the start. This holds for a key without spaces or newlines, and a value that does not contain the prefix. |
| `EnvOps.AppendOccurrences` | src/env_ops.rs:67-71 | Take rewritten content that ends in `\n` and has no prefix. After the line is appended, the prefix occurs only where the line starts. |
| `EnvOps.CutAppended` | src/env_ops.rs:115-116 | A cut at the start of the appended line removes exactly that line. |
| `EnvOps.StripAppended` | src/env_ops.rs:113-119 | The removal loop on rewritten content plus one appended line gives back the rewritten content. |
| `EnvOps.RemoveUndoesAppend` | src/env_ops.rs:106-126 | Rewriting content that was just set gives back the rewrite without the set line. |
| `EnvOps.SetLeavesOneAssignment` | src/env_ops.rs:61-75 | For a key without `\n` and a value that does not contain `export KEY=`, the written content holds exactly one occurrence of `export KEY=`: the appended last line. |
| `EnvOps.SetOverridesPrevious` | src/env_ops.rs:61-75 | After setting v1, a second set or unset of the same key writes the same content as that second call alone would. So setting v1 then v2 leaves one line, carrying v2. |
| `EnvOps.UnsetRemovesAssignment` | src/env_ops.rs:61-75 | Unsetting any key without spaces or newlines succeeds, even when the key was never set, and leaves no `export KEY=`. |
| `EnvOps.UnsetIdempotent` | src/env_ops.rs:61-75 | For a key without spaces or newlines and content without `\r`, unsetting twice writes what unsetting once wrote. |
| `EnvOps.CutKeepsLineHead` | src/env_ops.rs:114-117 | When the first match is at the start of line `l`, the text `h` before it stays and is joined to what follows `l`'s newline. |
| `EnvOps.CutLine` | src/env_ops.rs:115-116 | A cut at the start of a line holding no `\n` removes that line and its `\n` only. |
| `Interactive.Init` | src/interactive.rs:37-50 | The initial state is in list mode, not exiting, and over the given snapshot. The cursor and both offsets are 0, and 30 rows are visible with values cut at 30. It satisfies the handler's invariant and the scroll band. |
| `Interactive.MoveDown` | src/interactive.rs:87-98 | Down moves one entry exactly when the cursor is not on the last entry, and otherwise stays. It resets the value offset. It scrolls by one row exactly when the new cursor lies more than the margin (visible rows minus 8, then minus 4, both stopping at 0) below the first shown row, and otherwise not at all. It keeps the invariant and the band "cursor at most first shown row plus margin". |
| `Interactive.MoveUp` | src/interactive.rs:99-108 | Up at the top changes nothing. Otherwise it moves back one entry and resets the value offset. The first shown row becomes the smaller of the old one and the new cursor, so the list scrolls up only when the cursor leaves the top. It keeps the invariant and the band. |
| `Interactive.ScrollLeft` | src/interactive.rs:109-113 | Left lowers the value offset by one, saturating at 0. Nothing else changes. |
| `Interactive.ScrollRight` | src/interactive.rs:114-120 | Right raises the value offset by one, up to the selected value's UTF-8 length. With no entry at the cursor it does nothing. |
| `Interactive.Reload` | src/interactive.rs:121-126 | Ctrl+R installs the fresh snapshot with cursor and both offsets at 0. Mode, exit flag, visible rows and truncation length are kept. The result satisfies the invariant and the band. |
| `Interactive.HandleKeyEvent` | src/interactive.rs:82-129 | Ctrl+Q only sets the exit flag. Otherwise Down, Up, Left and Right are exactly `MoveDown`, `MoveUp`, `ScrollLeft` and `ScrollRight`, and Ctrl+R is exactly a reload from the snapshot. Every key keeps the invariant: cursor within the entries (0 when empty), scroll offset at most the cursor, value offset within the selected value. Every key also keeps the scroll band. The mode and window fields never change, and entries change only on Ctrl+R. |
| `Interactive.DownsStopAtLast` | src/interactive/tests.rs:69-80 | n Down presses put the cursor at min(start + n, last index), never past the last entry. |
| `Interactive.UpsStopAtTop` | src/interactive/tests.rs:52-67 | n Up presses put the cursor at the start minus n, saturating at 0. |
| `Interactive.RightsStopAtEnd` | src/interactive/tests.rs:134-151 | n Right presses give value offset min(start + n, selected value length). |
| `Interactive.LeftsStopAtStart` | src/interactive/tests.rs:121-132 | n Left presses give value offset start minus n, saturating at 0. |
| `Interactive.SmallWindowFollowsCursor` | src/interactive.rs:92-106 | With at most 12 visible rows, a window whose first shown row is the cursor still starts at the cursor after one Down or one Up. |
| `Interactive.SmallWindowDowns` | src/interactive.rs:92-97 | In such a window, any number of Down presses keeps the first shown row on the cursor. |
| `Interactive.SmallWindowUps` | src/interactive.rs:104-106 | In such a window, any number of Up presses keeps the first shown row on the cursor. |
| `Interactive.ScrollScenario` | src/interactive/tests.rs:83-118 | With 5 visible rows and at least 11 entries, ten Downs scroll to offset 10. Five Ups then bring it back to 5. |
| `Interactive.QuitNeedsControl` | src/interactive.rs:84-86 | Ctrl+q sets only the exit flag. `q` alone, or with Control plus Shift, changes nothing. |
| `Interactive.OtherKeysIgnored` | src/interactive.rs:127 | Any key other than the arrows, Ctrl+Q and Ctrl+R leaves the state unchanged. |
| `Variables.PrintEnv` | src/variables.rs:9-14 | One line per snapshot entry, in snapshot order. Each line is the format with `{name}` replaced by the key, then `{value}` by the value, followed by `\n`. |
| `Variables.FormatWithoutPlaceholders` | src/variables.rs:11 | A format with neither placeholder prints itself for every entry. |
| `Variables.NameSubstitutedFirst` | src/variables.rs:11 | The name is substituted first. The format `{name}` with a key that reads `{value}` prints the value. |
| `Variables.SetVariable` | src/variables.rs:22-50 | Succeeds if and only if the key is non-empty and has no `=` or NUL. The empty key gets its message first, then bad characters get theirs, and the environment is unchanged on failure. On success the key is bound to the value and every other key keeps its value. |
| `Variables.DeleteVariable` | src/variables.rs:88-103 | Succeeds if and only if the key is set. Afterwards the key is absent and all other keys keep their values. An unset key gives the "does not exist" error with nothing changed. |
| `Variables.UpdateVariable` | src/variables.rs:53-85 | No change requested: Ok with nothing changed. A value-only update, or one naming the same key with a value, is a set. Naming the same set key without a value sets it again to its current value. A rename of a set variable moves the old value, or the new value when given, to the new key. A rename to a refused key still deletes the old key. Renaming an unset variable without a new value gives the "without a value" error. Renaming an unset variable with a new value fails at the delete. |
| `Variables.RenameRoundTrip` | src/variables.rs:53-85 | Renaming a set variable to a free key and back restores the environment. |
| `Variables.FindVariable` | src/variables.rs:106-108 | None if and only if no entry has the key. Otherwise it gives the first entry with that key. |
| `Variables.FindVariableAgrees` | src/variables.rs:106-108 | On a snapshot listing an environment, the lookup gives (key, value) exactly when the key is set. |
| `Commands.Get` | src/commands.rs:171-184 | Ok if and only if the key is set, with its value. Otherwise the error carries the key and the no-suggestions flag unchanged. |
| `Commands.Set` | src/commands.rs:187-196 | The name check comes first: a refused name gives NameValidationError with nothing changed. A name that passes but holds `=` or NUL gets `set_variable`'s invalid-characters error, with nothing changed. Otherwise it succeeds and binds the key to the value. |
| `Commands.Add` | src/commands.rs:199-218 | The name check comes first, then `set_variable`'s invalid-characters error for a key with `=` or NUL. On success the key is bound to its old value (or "") followed by the suffix, and other keys are unchanged. On failure nothing changes. |
| `Commands.Delete` | src/commands.rs:221-238 | A refused name gives NameValidationError with nothing changed. Otherwise the result is always Ok, and the key is absent afterwards, whether or not it was set. |
| `Commands.GetAfterSet` | src/commands.rs:171-196 | After a successful set, get returns the value set. |
| `Commands.GetAfterDelete` | src/commands.rs:171-238 | After a delete of a valid name, get fails with CannotFindVariable. |
| `Commands.AddTwice` | src/commands.rs:199-212 | Adding s1 then s2 is adding s1 followed by s2. |
| `Commands.AddEmptySuffix` | src/commands.rs:199-212 | An empty suffix leaves a set variable unchanged. It binds an unset one to "". |
| `Commands.FirstInvalid` | src/commands.rs:246-247 | Every key before the position passes the name check, and the key at the position (if any) fails it. |
| `Commands.ExportedKeys` | src/commands.rs:244-268 | Every exported key is set and was listed. |
| `Commands.ExportLines` | src/commands.rs:256 | One `KEY=VALUE` line with `\n` per exported key, in the same order. |
| `Commands.ExportedMembership` | src/commands.rs:249-266 | A key is exported if and only if it is listed and set. |
| `Commands.ExportedDistinct` | src/commands.rs:251-254 | No key is exported twice. |
| `Commands.ExportedInOrder` | src/commands.rs:246-259 | The exported keys form a subsequence of the listed keys. |
| `Commands.Export` | src/commands.rs:240-271 | The target is the trimmed name plus ".env". A creation failure writes nothing and returns FileError. Otherwise one `KEY=VALUE` line is written for each set key before the first refused name, in list order, each key once. The status is Ok exactly when no name is refused, and otherwise that key's NameValidationError. |
| `Commands.ResolveFormat` | src/commands.rs:50-60 | An explicit format wins. Without one, a given configuration's format is used, and the default `{name} = "{value}"` when that format is absent or there is no configuration. |
| `Commands.RunPrint` | src/commands.rs:50-61 | The Print branch always succeeds, with one line per snapshot entry. An explicit format is applied to every entry as given. Without one, a configured format is applied. Otherwise each entry whose key has no `{value}` prints as `KEY = "VALUE"`. |
| `Commands.DefaultFormatLine` | src/commands.rs:131-137 | With the default format an entry prints as `KEY = "VALUE"`, for a key that does not contain `{value}`. |
| `Commands.RunGet` | src/commands.rs:27-48 | Success if and only if the key is set, with its value and no other output. An unset key is a failure. Suggestions are written if and only if they are not turned off and some name scores strictly above 0.6. When written, they are the header line "Did you mean:" and then each similar name indented by two spaces, in environment order. |
| `Commands.Suggestions` | src/commands.rs:32-43 | The suggestion block is non-empty if and only if some name scores strictly above 0.6. It is then the header line followed by each similar name, indented, in environment order. |
| `Commands.SuggestedNamesAreSet` | src/commands.rs:27-43 | When the names listed are the environment's keys, every suggested name is a set variable, and so never the missing key itself. |
| `Commands.IndentAll` | src/commands.rs:40-43 | One indented line per name, in order. |
| `Commands.SuggestionsExist` | src/commands.rs:32-37 | The suggestion list is non-empty if and only if some name passes the 0.6 threshold. |

## Left out

- The Windows branch of `set_permanent_env` (registry writes and the settings-change broadcast). It is foreign calls with no logic of its own beyond set and delete.
- File I/O: locating `~/.bashrc`, which fails without a home directory, and reading and writing it. The file's prior state is the `RcFile` parameter, and the content written back is the result. For `export`, a failure to create the file is the `createError` parameter. A failure of a later write is not modelled.
- Child processes: the `process` arguments of set, add and delete, `utils::run`, and the mapping of a child's exit status to the tool's exit code. The modelled calls run no process.
- `load`, `init-config`, the interactive run loop, terminal drawing and event reading are left out. So are logging and the global (`globalenv`) paths of `set_variable`, `delete_variable` and `update_variable`. Only key presses reach the modelled handler; the loop filters out releases and repeats.
- The edit modes `EditKey`, `EditValue` and `CreateNew` exist as values, but no modelled code enters them.
- The similarity score from the `similar_string` crate is a parameter. Its f64 threshold comparison is done on reals.
- `Text.ToLower`: lower-cases ASCII letters only. Rust's `to_lowercase` also maps other Unicode letters, some of them to several characters.
- `Commands.RunGet`: returns the value found instead of its Rust debug rendering (quotes and escapes).
- `Variables.SetVariable`: a value containing NUL makes the host's `set_var` panic. The model binds it anyway.
- `Commands.Get`: a set variable whose value is not valid Unicode reads as unset in the source. Here every value is a string.
- `EnvOps.RemoveIdempotent`: proved only for content without `\r` and keys without `\n`. `str::lines` strips one `\r` per pass (see `EnvOps.NormaliseCarriageReturns`). A key holding `\n` can also re-form a match once blank lines are joined away.
- `EnvOps.SetPermanentEnv`: returns the corrected rewrite for every file. In the source, the call never returns for some files, for example one whose last line holds an assignment of the key with no final `\n` (see "## Findings"). Content the tool wrote itself always ends in `\n` and never hangs (`EnvOps.WrittenContentNeverHangs`).
- `EnvOps.SetKeepsOtherLines`: says which lines survive only for content without `\r` and without an assignment of the key. Otherwise a cut starts at the match, not at the start of its line, and joins the rest of that line to the next one (`EnvOps.CutKeepsLineHead`).
- `EnvOps.RemoveLeavesNoAssignment`: proved only for keys without `\n`. `validate_env_var` accepts such keys, and dropping a blank line can then join two lines into a new assignment (`EnvOps.NewlineKeyReforms`).
- `EnvOps.SetLeavesOneAssignment`: proved only for keys without `\n`, for the same reason. It also needs a value that does not itself contain `export KEY=`.
- `EnvOps.UnsetRemovesAssignment`: proved only for keys without `\n`. For the key "A\n", unsetting can write an assignment of it (`EnvOps.NewlineKeyReforms`).
- `EnvOps.UnsetIdempotent`: proved only for keys without `\n` and content without `\r`, as for `EnvOps.RemoveIdempotent`.
- `EnvOps.SetOverridesPrevious`: proved for a first value with no `\n` and no `export KEY=` in it, content without `\r`, and a key without `\n`.
- `EnvOps.AsWrittenTerminates`: the condition proved sufficient is that the content ends in `\n` (or has no match). "Every match is followed by a `\n`" does not hold up under the loop: a cut can join lines and create a new match with nothing after it.
- The Set, Add, Delete and Export branches of `run_command` only turn an error into a failure exit code, so they are not modelled separately.

## Findings

| source | as written | input that shows it | evidently intended | confidence | as-written member | corrected member |
|---|---|---|---|---|---|---|
| src/env_ops.rs:114-118 | The `while let` loop cuts a match only when a `\n` follows it. Otherwise it neither cuts nor stops, and finds the same match again forever. | A start-up file whose last line is `export K=1` with no final newline, then setting or unsetting `K`. | Remove the final assignment up to the end of the content, as `EnvOps.StripAssignments` does. The rest of the model uses that. | not executed | `EnvOps.StripAsWritten` (with `EnvOps.HangExample` and `EnvOps.AsWrittenHangs`) | `EnvOps.StripAssignments` |

=== FILE: commands.dfy ===
/** The command layer (src/commands.rs) over an explicit environment: get,
    set, add, delete and export, the format resolution of `print`, and the
    suggestion output of a failed `get`. Child processes and file I/O are
    not modelled; export's file content is returned as its lines. */
module Commands {
  import opened Common
  import opened Text
  import Utils
  import Variables

  /** The part of the configuration file the modelled commands read. */
  datatype Config = Config(printFormat: Option<string>)

  datatype ExitCode = Success | Failure

  const DefaultFormat := "{name} = \"{value}\""
  const SuggestionThreshold: real := 0.6
  const SuggestionHeader := "Did you mean:"

  /** `validate_var_name` failures as the commands report them. */
  function NameError(key: string): ErrorKind
    requires Utils.ValidateVarName(key).Err?
  {
    NameValidationError(Utils.ValidateVarName(key).error)
  }

  // ---------------------------------------------------------------------
  // get, set, add, delete

  /** `get`: the value of a set variable; for an unset one, the error that
      carries the key and the no-suggestions flag. */
  function Get(env: Env, key: string, noSimilarNames: bool): (r: Result<string, ErrorKind>)
    ensures r.Ok? <==> key in env
    ensures r.Ok? ==> r.value == env[key]
    ensures r.Err? ==> r.error == CannotFindVariable(key, noSimilarNames)
  {
    if key in env then Ok(env[key]) else Err(CannotFindVariable(key, noSimilarNames))
  }

  /** `set`: the name is checked first; then `set_variable` binds it. */
  function Set(env: Env, key: string, value: string): (r: Effect)
    ensures Utils.ValidateVarName(key).Err? ==> r == Effect(env, Err(NameError(key)))
    // A name that passes the check but holds `=` or NUL is refused by `set_variable`.
    ensures Utils.ValidateVarName(key).Ok? && !Variables.AcceptedKey(key) ==>
      r == Effect(env, Err(InvalidInput(Variables.InvalidCharsMessage)))
    ensures r.status.Ok? <==> Utils.ValidateVarName(key).Ok? && Variables.AcceptedKey(key)
    ensures r.status.Ok? ==> r.env == env[key := value]
    ensures r.status.Err? ==> r.env == env
  {
    if Utils.ValidateVarName(key).Err? then Effect(env, Err(NameError(key)))
    else Variables.SetVariable(env, key, value)
  }

  /** The current value of `key`, or "" when it is unset. */
  function CurrentOrEmpty(env: Env, key: string): string {
    if key in env then env[key] else ""
  }

  /** `add`: the name is checked first; then the suffix is appended to the
      current value (an unset variable counting as ""). */
  function Add(env: Env, key: string, suffix: string): (r: Effect)
    ensures Utils.ValidateVarName(key).Err? ==> r == Effect(env, Err(NameError(key)))
    // A name that passes the check but holds `=` or NUL is refused by `set_variable`.
    ensures Utils.ValidateVarName(key).Ok? && !Variables.AcceptedKey(key) ==>
      r == Effect(env, Err(InvalidInput(Variables.InvalidCharsMessage)))
    ensures r.status.Ok? <==> Utils.ValidateVarName(key).Ok? && Variables.AcceptedKey(key)
    ensures r.status.Ok? ==> key in r.env && r.env[key] == CurrentOrEmpty(env, key) + suffix
    ensures r.status.Ok? ==> r.env.Keys == env.Keys + {key}
    ensures forall k :: k != key && k in env ==> k in r.env && r.env[k] == env[k]
    ensures r.status.Err? ==> r.env == env
  {
    if Utils.ValidateVarName(key).Err? then Effect(env, Err(NameError(key)))
    else Variables.SetVariable(env, key, CurrentOrEmpty(env, key) + suffix)
  }

  /** `delete`: the name is checked first; a set variable is removed, an
      unset one only draws a warning and the command still succeeds. */
  function Delete(env: Env, key: string): (r: Effect)
    ensures Utils.ValidateVarName(key).Err? ==> r == Effect(env, Err(NameError(key)))
    ensures Utils.ValidateVarName(key).Ok? ==> r.status.Ok? && r.env == env - {key}
  {
    if Utils.ValidateVarName(key).Err? then Effect(env, Err(NameError(key)))
    else if key in env then Variables.DeleteVariable(env, key)
    else Effect(env, Ok(()))
  }

  /** After a successful set, get returns the value set. */
  lemma GetAfterSet(env: Env, key: string, value: string, flag: bool)
    requires Set(env, key, value).status.Ok?
    ensures Get(Set(env, key, value).env, key, flag) == Ok(value)
  {
  }

  /** After delete, get fails. */
  lemma GetAfterDelete(env: Env, key: string, flag: bool)
    requires Utils.ValidateVarName(key).Ok?
    ensures Get(Delete(env, key).env, key, flag) == Err(CannotFindVariable(key, flag))
  {
  }

  /** Two adds append both suffixes in turn. */
  lemma AddTwice(env: Env, key: string, s1: string, s2: string)
    requires Add(env, key, s1).status.Ok?
    ensures Add(Add(env, key, s1).env, key, s2) == Add(env, key, s1 + s2)
  {
    var cur := CurrentOrEmpty(env, key);
    var e1 := Add(env, key, s1).env;
    assert e1 == env[key := cur + s1];
    assert CurrentOrEmpty(e1, key) == cur + s1;
    assert cur + s1 + s2 == cur + (s1 + s2);
    assert Add(e1, key, s2).env == env[key := cur + (s1 + s2)];
  }

  /** Adding "" leaves a set variable as it is, and binds an unset one to "". */
  lemma AddEmptySuffix(env: Env, key: string)
    requires Add(env, key, "").status.Ok?
    ensures key in env ==> Add(env, key, "").env == env
    ensures key !in env ==> Add(env, key, "").env == env[key := ""]
  {
    assert CurrentOrEmpty(env, key) + "" == CurrentOrEmpty(env, key);
  }

  // ---------------------------------------------------------------------
  // export

  /** The first position whose key the name check refuses, or the length. */
  function FirstInvalid(keys: seq<string>): (n: nat)
    ensures n <= |keys|
    ensures forall j :: 0 <= j < n ==> Utils.ValidateVarName(keys[j]).Ok?
    ensures n < |keys| ==> Utils.ValidateVarName(keys[n]).Err?
  {
    if keys == [] then 0
    else if Utils.ValidateVarName(keys[0]).Err? then 0
    else 1 + FirstInvalid(keys[1..])
  }

  /** The keys export writes for `keys`, in order: those that are set, each
      at its first occurrence only. */
  function ExportedKeys(env: Env, keys: seq<string>): (r: seq<string>)
    ensures forall k :: k in r ==> k in env && k in keys
    decreases |keys|
  {
    if keys == [] then []
    else
      var init, last := keys[..|keys| - 1], keys[|keys| - 1];
      if last in env && last !in init then ExportedKeys(env, init) + [last]
      else ExportedKeys(env, init)
  }

  /** The lines export writes for the given keys. */
  function ExportLines(env: Env, ks: seq<string>): (r: seq<string>)
    requires forall k :: k in ks ==> k in env
    ensures |r| == |ks|
    ensures forall i :: 0 <= i < |ks| ==> r[i] == ks[i] + "=" + env[ks[i]] + "\n"
  {
    if ks == [] then [] else ExportLines(env, ks[..|ks| - 1]) + [ks[|ks| - 1] + "=" + env[ks[|ks| - 1]] + "\n"]
  }

  /** A key is exported exactly when it is listed and set. */
  lemma {:induction false} ExportedMembership(env: Env, keys: seq<string>, k: string)
    ensures k in ExportedKeys(env, keys) <==> k in keys && k in env
    decreases |keys|
  {
    if keys != [] {
      var init := keys[..|keys| - 1];
      assert keys == init + [keys[|keys| - 1]];
      ExportedMembership(env, init, k);
    }
  }

  /** No key is exported twice. */
  lemma {:induction false} ExportedDistinct(env: Env, keys: seq<string>)
    ensures forall i, j :: 0 <= i < j < |ExportedKeys(env, keys)| ==>
      ExportedKeys(env, keys)[i] != ExportedKeys(env, keys)[j]
    decreases |keys|
  {
    if keys != [] {
      var init, last := keys[..|keys| - 1], keys[|keys| - 1];
      ExportedDistinct(env, init);
      ExportedMembership(env, init, last);
    }
  }

  /** The exported keys appear in the order the keys were given. */
  lemma {:induction false} ExportedInOrder(env: Env, keys: seq<string>)
    ensures IsSubsequence(ExportedKeys(env, keys), keys)
    decreases |keys|
  {
    if keys != [] {
      var init, last := keys[..|keys| - 1], keys[|keys| - 1];
      ExportedInOrder(env, init);
      assert keys == init + [last];
      if last in env && last !in init {
        SubsequenceAppend(ExportedKeys(env, init), init, last);
      } else {
        SubsequenceExtend(ExportedKeys(env, init), init, last);
      }
    }
  }

  /** `export`: the target file is the trimmed name plus ".env"; when it
      cannot be created (`createError`) nothing is written. Otherwise the
      keys are taken in order: a key the name check refuses stops the
      export with its error, the lines already written staying; an unset
      key is skipped; a key already written is skipped. */
  method Export(env: Env, fileName: string, keys: seq<string>, createError: Option<string>)
    returns (target: string, lines: seq<string>, status: Result<(), ErrorKind>)
    ensures target == Trim(fileName) + ".env"
    ensures createError.Some? ==> lines == [] && status == Err(FileError(createError.value))
    ensures createError.None? ==> (status.Ok? <==> FirstInvalid(keys) == |keys|)
    ensures createError.None? && status.Err? ==> status == Err(NameError(keys[FirstInvalid(keys)]))
    ensures createError.None? ==>
      lines == ExportLines(env, ExportedKeys(env, keys[..FirstInvalid(keys)]))
  {
    target := Trim(fileName) + ".env";
    lines := [];
    if createError.Some? {
      status := Err(FileError(createError.value));
      return;
    }
    var added: seq<string> := [];
    var i := 0;
    while i < |keys|
      invariant 0 <= i <= |keys|
      invariant forall j :: 0 <= j < i ==> Utils.ValidateVarName(keys[j]).Ok?
      invariant added == ExportedKeys(env, keys[..i])
      invariant forall k :: k in added ==> k in env
      invariant lines == ExportLines(env, added)
    {
      var key := keys[i];
      if Utils.ValidateVarName(key).Err? {
        status := Err(NameError(key));
        assert FirstInvalid(keys) == i by { FirstInvalidAt(keys, i); }
        return;
      }
      ExportedKeysStep(env, keys, i);
      ExportedMembership(env, keys[..i], key);
      if key in env && key !in added {
        ExportLinesAppend(env, added, key);
        lines := lines + [key + "=" + env[key] + "\n"];
        added := added + [key];
      }
      i := i + 1;
    }
    assert keys[..i] == keys;
    FirstInvalidAt(keys, i);
    status := Ok(());
  }

  /** Extending the listed keys by one. */
  lemma ExportedKeysStep(env: Env, keys: seq<string>, i: nat)
    requires i < |keys|
    ensures ExportedKeys(env, keys[..i + 1]) ==
      if keys[i] in env && keys[i] !in keys[..i] then ExportedKeys(env, keys[..i]) + [keys[i]]
      else ExportedKeys(env, keys[..i])
  {
    assert keys[..i + 1][..i] == keys[..i];
  }

  /** Exporting one more key writes one more line. */
  lemma ExportLinesAppend(env: Env, ks: seq<string>, k: string)
    requires forall x :: x in ks ==> x in env
    requires k in env
    ensures ExportLines(env, ks + [k]) == ExportLines(env, ks) + [k + "=" + env[k] + "\n"]
  {
    assert (ks + [k])[..|ks|] == ks;
  }

  /** FirstInvalid is the first position that fails the name check. */
  lemma {:induction false} FirstInvalidAt(keys: seq<string>, i: nat)
    requires i <= |keys|
    requires forall j :: 0 <= j < i ==> Utils.ValidateVarName(keys[j]).Ok?
    requires i < |keys| ==> Utils.ValidateVarName(keys[i]).Err?
    ensures FirstInvalid(keys) == i
    decreases i
  {
    if i > 0 {
      FirstInvalidAt(keys[1..], i - 1);
    }
  }

  // ---------------------------------------------------------------------
  // run_command: Print and Get

  /** The format `print` uses: the command's own, otherwise the
      configuration's (which may be absent), otherwise the default. */
  function ResolveFormat(format: Option<string>, config: Option<Config>): (r: string)
    ensures format.Some? ==> r == format.value
    ensures format.None? && config.Some? && config.value.printFormat.Some? ==> r == config.value.printFormat.value
    ensures format.None? && (config.None? || config.value.printFormat.None?) ==> r == DefaultFormat
  {
    var effective := if format.Some? then format else if config.Some? then config.value.printFormat else format;
    effective.GetOr(DefaultFormat)
  }

  /** The Print branch: the listing of the snapshot in the resolved format;
      it always exits with success. */
  function RunPrint(format: Option<string>, config: Option<Config>, snapshot: seq<Entry>): (r: (ExitCode, seq<string>))
    ensures r.0 == Success
    ensures r.1 == Variables.PrintEnv(ResolveFormat(format, config), snapshot)
    ensures |r.1| == |snapshot|
    // An explicit format is used as given.
    ensures format.Some? ==> forall k :: 0 <= k < |snapshot| ==>
      r.1[k] == Variables.FormatEntry(format.value, snapshot[k].0, snapshot[k].1) + "\n"
    // Otherwise the configured format, when there is one.
    ensures format.None? && config.Some? && config.value.printFormat.Some? ==>
      forall k :: 0 <= k < |snapshot| ==>
        r.1[k] == Variables.FormatEntry(config.value.printFormat.value, snapshot[k].0, snapshot[k].1) + "\n"
    // Otherwise `KEY = "VALUE"` for each key without a value placeholder.
    ensures format.None? && (config.None? || config.value.printFormat.None?) ==>
      forall k :: 0 <= k < |snapshot| && !Contains(snapshot[k].0, "{value}") ==>
        r.1[k] == snapshot[k].0 + " = \"" + snapshot[k].1 + "\"" + "\n"
  {
    var lines := Variables.PrintEnv(ResolveFormat(format, config), snapshot);
    assert format.None? && (config.None? || config.value.printFormat.None?) ==>
      forall k :: 0 <= k < |snapshot| && !Contains(snapshot[k].0, "{value}") ==>
        lines[k] == snapshot[k].0 + " = \"" + snapshot[k].1 + "\"" + "\n" by {
      if format.None? && (config.None? || config.value.printFormat.None?) {
        forall k | 0 <= k < |snapshot| && !Contains(snapshot[k].0, "{value}")
          ensures lines[k] == snapshot[k].0 + " = \"" + snapshot[k].1 + "\"" + "\n"
        {
          DefaultFormatLine(snapshot[k].0, snapshot[k].1);
        }
      }
    }
    (Success, lines)
  }

  /** With the default format an entry prints as `KEY = "VALUE"`, for a key
      that does not itself hold `{value}`. */
  lemma DefaultFormatLine(key: string, value: string)
    requires !Contains(key, "{value}")
    ensures Variables.FormatEntry(DefaultFormat, key, value) == key + " = \"" + value + "\""
  {
    DefaultNameStep(key);
    DefaultValueStep(key, value);
  }

  /** The default format's name placeholder is its only one. */
  lemma DefaultNameStep(key: string)
    ensures Replace(DefaultFormat, "{name}", key) == key + " = \"" + "{value}" + "\""
  {
    var tail := " = \"{value}\"";
    DefaultFormatParts();
    ReplaceLeading("{name}", tail, key);
    Regroup(key, " = \"", "{value}", "\"");
  }

  /** Regrouping a concatenation of four pieces. */
  lemma Regroup(k: string, a: string, b: string, c: string)
    ensures k + (a + b + c) == k + a + b + c
  {
  }

  /** The default format is the name placeholder followed by a tail that
      has no `n`. */
  lemma DefaultFormatParts()
    ensures DefaultFormat == "{name}" + " = \"{value}\""
    ensures " = \"{value}\"" == " = \"" + "{value}" + "\""
    ensures !Contains(" = \"{value}\"", "{name}")
  {
    NoneWithoutChar(" = \"{value}\"", "{name}", 1);
  }

  /** After the name, the value placeholder is replaced once. */
  lemma DefaultValueStep(key: string, value: string)
    requires !Contains(key, "{value}")
    ensures Replace(key + " = \"" + "{value}" + "\"", "{value}", value) == key + " = \"" + value + "\""
  {
    var head := key + " = \"";
    var s := head + "{value}" + "\"";
    var rest := s[|key|..];
    assert key + rest == s;
    assert rest[0] == ' ';
    NoOccurrenceStartsIn(key, rest, "{value}");
    forall i | 0 <= i < |head| ensures !IsAt(s, "{value}", i) {
      if i >= |key| {
        assert s[i] != '{';
        if i + 7 <= |s| {
          assert s[i..i + 7][0] == s[i];
        }
      }
    }
    assert !Contains("\"", "{value}");
    ReplaceOnce(head, "\"", "{value}", value);
  }

  /** The outcome of the Get branch: the exit code, the value found, and
      the suggestion lines written. */
  datatype GetOutcome = GetOutcome(exit: ExitCode, value: Option<string>, suggestions: seq<string>)

  /** The Get branch: success with the value of a set variable. For an unset
      one the exit is a failure, and unless suggestions are turned off, the
      set names (in `names`, the environment's order) similar to the key
      are listed under a header, when there are any. */
  function RunGet(env: Env, names: seq<string>, key: string, noSimilarNames: bool, score: Utils.Similarity): (r: GetOutcome)
    ensures r.exit == Success <==> key in env
    ensures key in env ==> r.value == Some(env[key]) && r.suggestions == []
    ensures key !in env ==> r.value.None?
    ensures r.suggestions != [] <==>
      key !in env && !noSimilarNames &&
      exists k :: 0 <= k < |names| && Utils.Passes(key, names[k], SuggestionThreshold, score)
    ensures r.suggestions != [] ==>
      var similar := Utils.FindSimilarString(key, names, SuggestionThreshold, score);
      |r.suggestions| == |similar| + 1 && r.suggestions[0] == SuggestionHeader + "\n"
      && forall i :: 0 <= i < |similar| ==> r.suggestions[i + 1] == "  " + similar[i] + "\n"
  {
    match Get(env, key, noSimilarNames)
    case Ok(v) => GetOutcome(Success, Some(v), [])
    case Err(_) =>
      if noSimilarNames then GetOutcome(Failure, None, [])
      else GetOutcome(Failure, None, Suggestions(key, names, score))
  }

  /** When the names listed are the environment's keys, every suggested name
      is a set variable, and so never the missing key itself. */
  lemma SuggestedNamesAreSet(env: Env, names: seq<string>, key: string, noSimilarNames: bool, score: Utils.Similarity)
    requires forall k :: k in names <==> k in env
    ensures var r := RunGet(env, names, key, noSimilarNames, score);
      var similar := Utils.FindSimilarString(key, names, SuggestionThreshold, score);
      r.suggestions != [] ==> forall i :: 0 <= i < |similar| ==> similar[i] in env && similar[i] != key
  {
    var similar := Utils.FindSimilarString(key, names, SuggestionThreshold, score);
    forall i | 0 <= i < |similar| ensures similar[i] in names {
      Utils.SimilarMembership(key, names, SuggestionThreshold, score, similar[i]);
    }
  }

  /** The "Did you mean" block: nothing when no name is similar enough,
      otherwise the header and then each similar name on its own line. */
  function Suggestions(key: string, names: seq<string>, score: Utils.Similarity): (r: seq<string>)
    ensures r != [] <==>
      exists k :: 0 <= k < |names| && Utils.Passes(key, names[k], SuggestionThreshold, score)
    ensures r != [] ==>
      var similar := Utils.FindSimilarString(key, names, SuggestionThreshold, score);
      |r| == |similar| + 1 && r[0] == SuggestionHeader + "\n"
      && forall i :: 0 <= i < |similar| ==> r[i + 1] == "  " + similar[i] + "\n"
  {
    var similar := Utils.FindSimilarString(key, names, SuggestionThreshold, score);
    SuggestionsExist(key, names, score);
    if similar == [] then []
    else [SuggestionHeader + "\n"] + IndentAll(similar)
  }

  /** Each name on its own indented line. */
  function IndentAll(names: seq<string>): (r: seq<string>)
    ensures |r| == |names|
    ensures forall i :: 0 <= i < |names| ==> r[i] == "  " + names[i] + "\n"
  {
    if names == [] then [] else ["  " + names[0] + "\n"] + IndentAll(names[1..])
  }

  /** There are suggestions exactly when some name passes the threshold. */
  lemma SuggestionsExist(key: string, names: seq<string>, score: Utils.Similarity)
    ensures Utils.FindSimilarString(key, names, SuggestionThreshold, score) != [] <==>
      exists k :: 0 <= k < |names| && Utils.Passes(key, names[k], SuggestionThreshold, score)
  {
    var similar := Utils.FindSimilarString(key, names, SuggestionThreshold, score);
    if similar != [] {
      Utils.SimilarMembership(key, names, SuggestionThreshold, score, similar[0]);
    } else {
      forall k | 0 <= k < |names| ensures !Utils.Passes(key, names[k], SuggestionThreshold, score) {
        Utils.SimilarMembership(key, names, SuggestionThreshold, score, names[k]);
      }
    }
  }
}

=== FILE: common.dfy ===
/** Shared datatypes: optional values, results and the error kinds the
    command layer reports. */
module Common {

  /** Rust's `Option<T>`. */
  datatype Option<+T> = None | Some(value: T) {

    /** `unwrap_or`: the value, or `default` when there is none. */
    function GetOr(default: T): T {
      match this
      case Some(v) => v
      case None => default
    }

    /** `Option::or`: this value if present, otherwise `other`. */
    function Or(other: Option<T>): Option<T> {
      if Some? then this else other
    }
  }

  /** Rust's `Result<T, E>`. */
  datatype Result<+T, +E> = Ok(value: T) | Err(error: E)

  /** The error kinds raised on the modelled paths. */
  datatype ErrorKind =
    | InvalidInput(message: string)
    | NameValidationError(message: string)
    | CannotFindVariable(key: string, noSimilarNames: bool)
    | FileError(message: string)

  /** A process environment: variable name to value. */
  type Env = map<string, string>

  /** One environment entry as the host yields it. */
  type Entry = (string, string)

  /** An effect on the process environment: the environment afterwards
      together with the status the operation returned. */
  datatype Effect = Effect(env: Env, status: Result<(), ErrorKind>)

  // ---------------------------------------------------------------------
  // Subsequences

  /** `a` is `b` with some elements left out, order kept. */
  predicate IsSubsequence<T(==)>(a: seq<T>, b: seq<T>)
    decreases |b|
  {
    if a == [] then true
    else if b == [] then false
    else (a[0] == b[0] && IsSubsequence(a[1..], b[1..])) || IsSubsequence(a, b[1..])
  }

  /** A subsequence stays one when the same element is appended to both. */
  lemma {:induction false} SubsequenceAppend<T>(a: seq<T>, b: seq<T>, x: T)
    requires IsSubsequence(a, b)
    ensures IsSubsequence(a + [x], b + [x])
    decreases |b|
  {
    if a == [] {
      SubsequenceOfSingleton(b, x);
      assert a + [x] == [x];
    } else {
      assert (a + [x])[0] == a[0] && (a + [x])[1..] == a[1..] + [x];
      assert (b + [x])[0] == b[0] && (b + [x])[1..] == b[1..] + [x];
      if a[0] == b[0] && IsSubsequence(a[1..], b[1..]) {
        SubsequenceAppend(a[1..], b[1..], x);
      } else {
        SubsequenceAppend(a, b[1..], x);
      }
    }
  }

  /** `[x]` is a subsequence of anything that ends in `x`. */
  lemma {:induction false} SubsequenceOfSingleton<T>(b: seq<T>, x: T)
    ensures IsSubsequence([x], b + [x])
    decreases |b|
  {
    if b == [] {
      assert [x][1..] == [];
    } else {
      assert (b + [x])[1..] == b[1..] + [x];
      SubsequenceOfSingleton(b[1..], x);
    }
  }

  /** A subsequence of `b` is one of `b` extended. */
  lemma {:induction false} SubsequenceExtend<T>(a: seq<T>, b: seq<T>, y: T)
    requires IsSubsequence(a, b)
    ensures IsSubsequence(a, b + [y])
    decreases |b|
  {
    if a != [] {
      assert (b + [y])[0] == b[0] && (b + [y])[1..] == b[1..] + [y];
      if a[0] == b[0] && IsSubsequence(a[1..], b[1..]) {
        SubsequenceExtend(a[1..], b[1..], y);
      } else {
        SubsequenceExtend(a, b[1..], y);
      }
    }
  }
}

=== FILE: env_ops.dfy ===
/** Environment operations that outlive the process (src/env_ops.rs): the
    similar-name lookup, the input check, and the rewrite of the shell
    start-up file that holds `export KEY="VALUE"` lines. */
module EnvOps {
  import opened Common
  import opened Text
  import Utils

  /** Suggestions need a similarity strictly above this. */
  const SimilarityThreshold: real := 0.6

  const SpaceInKeyMessage := "Variable name cannot contain spaces"
  const DoubleEqualsMessage := "Invalid variable format: value contains double equals"

  /** What a missing start-up file is created with before it is read. */
  const RcHeader := "# Environment variables\n"

  // ---------------------------------------------------------------------
  // Suggestions

  /** `find_similar_vars`: the names (in the order given) whose similarity to
      `key` passes the threshold, or None when there is none. */
  function FindSimilarVars(key: string, names: seq<string>, score: Utils.Similarity): (r: Option<seq<string>>)
    ensures r.None? <==>
      forall k :: 0 <= k < |names| ==> !Utils.Passes(key, names[k], SimilarityThreshold, score)
    ensures r.Some? ==> r.value != [] && r.value == Utils.FindSimilarString(key, names, SimilarityThreshold, score)
  {
    var similar := Utils.FindSimilarString(key, names, SimilarityThreshold, score);
    if similar == [] then
      assert forall k :: 0 <= k < |names| ==> !Utils.Passes(key, names[k], SimilarityThreshold, score) by {
        forall k | 0 <= k < |names| ensures !Utils.Passes(key, names[k], SimilarityThreshold, score) {
          Utils.SimilarMembership(key, names, SimilarityThreshold, score, names[k]);
        }
      }
      None
    else
      Utils.SimilarMembership(key, names, SimilarityThreshold, score, similar[0]);
      Some(similar)
  }

  // ---------------------------------------------------------------------
  // Input check

  /** `validate_env_var`: the key may hold no space; a value, when given, may
      not hold "==". An empty key passes. */
  function ValidateEnvVar(key: string, value: Option<string>): (r: Result<(), string>)
    ensures r.Ok? <==> ' ' !in key && (value.Some? ==> !Contains(value.value, "=="))
    ensures ' ' in key ==> r == Err(SpaceInKeyMessage)
    ensures ' ' !in key && r.Err? ==> r == Err(DoubleEqualsMessage)
  {
    if ' ' in key then Err(SpaceInKeyMessage)
    else if value.Some? && Contains(value.value, "==") then Err(DoubleEqualsMessage)
    else Ok(())
  }

  // ---------------------------------------------------------------------
  // The start-up file rewrite

  /** The start of an assignment to `key`. */
  function AssignPrefix(key: string): string {
    "export " + key + "="
  }

  /** The line appended to set `key` to `value`. */
  function AssignLine(key: string, value: string): string {
    AssignPrefix(key) + "\"" + value + "\"\n"
  }

  /** One step of the removal loop: delete from `pos` through the first `\n`
      at or after it. When there is no such `\n` the source loops forever
      (see StripAsWritten); this step then deletes to the end. */
  function DeleteLineAt(c: string, pos: nat): (r: string)
    requires pos < |c|
    ensures 0 < |c| - |r| <= |c| - pos
    ensures r == c[..pos] + c[pos + |c| - |r|..]
    ensures '\n' !in c[pos..pos + |c| - |r| - 1]
    ensures c[pos + |c| - |r| - 1] == '\n' || '\n' !in c[pos..]
    ensures forall ch :: ch in r ==> ch in c
  {
    match IndexOf(c[pos..], '\n')
    case Some(e) =>
      assert c[pos..][..e] == c[pos..pos + e];
      c[..pos] + c[pos + e + 1..]
    case None =>
      assert c[pos..|c| - 1] <= c[pos..];
      c[..pos]
  }

  /** The removal loop for one pattern as written: while the pattern occurs,
      cut from its first occurrence through the next `\n`. None stands for a
      loop that never ends: an occurrence with no `\n` after it is never cut,
      and the search finds it again. */
  function StripAsWritten(c: string, p: string): (r: Option<string>)
    requires |p| > 0
    ensures r.Some? ==> r.value == StripAssignments(c, p)
    decreases |c|
  {
    match Find(c, p)
    case None => Some(c)
    case Some(pos) =>
      match IndexOf(c[pos..], '\n')
      case None => None
      case Some(_) => StripAsWritten(DeleteLineAt(c, pos), p)
  }

  /** The removal loop with the hang corrected: an occurrence on a final line
      without `\n` is cut to the end of the content. */
  function StripAssignments(c: string, p: string): (r: string)
    requires |p| > 0
    ensures !Contains(r, p)
    ensures !Contains(c, p) ==> r == c
    ensures |r| <= |c|
    ensures forall ch :: ch in r ==> ch in c
    decreases |c|
  {
    match Find(c, p)
    case None => c
    case Some(pos) => StripAssignments(DeleteLineAt(c, pos), p)
  }

  /** The final clean-up: the lines of `c` that are not whitespace-only,
      joined with `\n`, plus a closing `\n`. */
  function Normalise(c: string): (r: string)
    ensures EndsWith(r, "\n")
    ensures r == "\n" <==> forall l :: l in Lines(c) ==> IsBlank(l)
  {
    var kept := KeepNonBlank(Lines(c));
    assert kept != [] ==> |Join(kept, "\n")| > 0 by {
      if kept != [] {
        JoinStartsWith(kept, "\n");
      }
    }
    Join(kept, "\n") + "\n"
  }

  /** `remove_existing_var`: strip the three assignment forms of `key`, then
      drop blank lines. */
  function RemoveExistingVar(c: string, key: string): (r: string)
    ensures EndsWith(r, "\n")
  {
    var p := AssignPrefix(key);
    var c1 := StripAssignments(c, p);
    var c2 := StripAssignments(c1, p + "\"");
    var c3 := StripAssignments(c2, p + "'");
    Normalise(c3)
  }

  /** The shell start-up file before the call. */
  datatype RcFile = Missing | Unreadable | Readable(text: string)

  /** The content the rewrite starts from: a missing file is first created
      holding the header; a file that cannot be read counts as empty. */
  function InitialContent(f: RcFile): string {
    match f
    case Missing => RcHeader
    case Unreadable => ""
    case Readable(text) => text
  }

  /** `set_permanent_env` on the shell start-up file: check the input, then
      rewrite the file's content with any assignment of `key` removed and,
      when a value is given, a fresh one appended. The result is the
      content written back. */
  function SetPermanentEnv(existing: RcFile, key: string, value: Option<string>): (r: Result<string, string>)
    ensures r.Err? <==> ValidateEnvVar(key, value).Err?
    ensures r.Err? ==> r.error == ValidateEnvVar(key, value).error
    ensures r.Ok? && value.Some? ==> EndsWith(r.value, AssignLine(key, value.value))
    ensures r.Ok? ==> EndsWith(r.value, "\n")
    // The old content, rewritten, stays in front of the appended line.
    ensures r.Ok? ==>
      r.value == RemoveExistingVar(InitialContent(existing), key) + (if value.Some? then AssignLine(key, value.value) else "")
  {
    match ValidateEnvVar(key, value)
    case Err(e) => Err(e)
    case Ok(_) =>
      var content := RemoveExistingVar(InitialContent(existing), key);
      match value
      case Some(v) => Ok(content + AssignLine(key, v))
      case None => Ok(content)
  }

  predicate EndsWith(s: string, t: string) {
    |t| <= |s| && s[|s| - |t|..] == t
  }

  // ---------------------------------------------------------------------
  // Facts about the rewrite

  /** A join of non-empty lines is non-empty: it starts with the first line. */
  lemma JoinStartsWith(ls: seq<string>, sep: string)
    requires |ls| >= 1
    ensures |Join(ls, sep)| >= |ls[0]|
  {
  }

  /** The loop as written ends whenever the content ends in `\n` (or holds no
      occurrence), and then agrees with the corrected loop. */
  lemma {:induction false} AsWrittenTerminates(c: string, p: string)
    requires |p| > 0
    requires EndsWith(c, "\n") || !Contains(c, p)
    ensures StripAsWritten(c, p) == Some(StripAssignments(c, p))
    decreases |c|
  {
    match Find(c, p)
    case None =>
    case Some(pos) =>
      assert c[pos..][|c| - pos - 1] == '\n';
      StripStep(c, p, pos);
      CutKeepsCondition(c, p, pos);
      AsWrittenTerminates(DeleteLineAt(c, pos), p);
  }

  /** `remove_existing_var` with the three removal loops as written: None
      when one of them never ends. */
  function RemoveAsWritten(c: string, key: string): (r: Option<string>)
    ensures r.Some? ==> r.value == RemoveExistingVar(c, key)
  {
    var p := AssignPrefix(key);
    match StripAsWritten(c, p)
    case None => None
    case Some(c1) =>
      match StripAsWritten(c1, p + "\"")
      case None => None
      case Some(c2) =>
        match StripAsWritten(c2, p + "'")
        case None => None
        case Some(c3) => Some(Normalise(c3))
  }

  /** The rewrite as written ends, with the corrected result, on content
      ending in `\n`. */
  lemma RemoveAsWrittenTerminates(c: string, key: string)
    requires EndsWith(c, "\n")
    ensures RemoveAsWritten(c, key) == Some(RemoveExistingVar(c, key))
  {
    var p := AssignPrefix(key);
    AsWrittenTerminates(c, p);
    var c1 := StripAssignments(c, p);
    NoneOfExtension(c1, p, "\"");
    NoneOfExtension(c1, p, "'");
    AsWrittenTerminates(c1, p + "\"");
    AsWrittenTerminates(c1, p + "'");
  }

  /** Content the tool wrote itself never hangs a later rewrite, whatever
      key that rewrite is for. */
  lemma WrittenContentNeverHangs(existing: RcFile, key: string, value: Option<string>, other: string)
    requires SetPermanentEnv(existing, key, value).Ok?
    ensures RemoveAsWritten(SetPermanentEnv(existing, key, value).value, other).Some?
  {
    RemoveAsWrittenTerminates(SetPermanentEnv(existing, key, value).value, other);
  }

  /** A cut at the first match of content ending in `\n` leaves content that
      again ends in `\n`, or has no match left. */
  lemma CutKeepsCondition(c: string, p: string, pos: nat)
    requires |p| > 0 && EndsWith(c, "\n") && Find(c, p) == Some(pos)
    ensures var d := DeleteLineAt(c, pos); EndsWith(d, "\n") || !Contains(d, p)
  {
    var d := DeleteLineAt(c, pos);
    var tail := c[pos + |c| - |d|..];
    if tail == [] {
      assert d == c[..pos];
      BeforeFirstMatch(c, p, pos);
    } else {
      assert d[|d| - 1] == tail[|tail| - 1];
    }
  }

  /** The text before the first match has no match. */
  lemma BeforeFirstMatch(c: string, p: string, pos: nat)
    requires |p| > 0 && Find(c, p) == Some(pos)
    ensures !Contains(c[..pos], p)
  {
    forall j | 0 <= j <= pos - |p| ensures !IsAt(c[..pos], p, j) {
      assert !IsAt(c, p, j);
      assert c[..pos][j..j + |p|] == c[j..j + |p|];
    }
  }

  /** The loop as written never ends when the pattern occurs and the content
      holds no `\n` at all. */
  lemma AsWrittenHangs(c: string, p: string)
    requires |p| > 0 && Contains(c, p) && '\n' !in c
    ensures StripAsWritten(c, p).None?
  {
    var pos := Find(c, p).value;
    assert '\n' !in c[pos..] by {
      forall k | 0 <= k < |c| - pos ensures c[pos..][k] != '\n' {
        assert c[pos..][k] == c[pos + k];
      }
    }
  }

  /** A start-up file whose only line is `export K=1` with no final newline:
      setting K never returns, where the corrected loop empties it. */
  lemma HangExample()
    ensures StripAsWritten("export K=1", AssignPrefix("K")).None?
    ensures StripAssignments("export K=1", AssignPrefix("K")) == ""
  {
    var c, p := "export K=1", AssignPrefix("K");
    assert c[..|p|] == p;
    assert IsAt(c, p, 0);
    assert '\n' !in c;
    AsWrittenHangs(c, p);
    assert Find(c, p) == Some(0);
    assert '\n' !in c[0..];
    assert DeleteLineAt(c, 0) == "";
  }

  /** Splitting the clean-up's output gives back the kept lines, as long as
      no line of the input ends in a carriage return. */
  lemma NormaliseLines(c: string)
    requires forall l :: l in Lines(c) ==> !EndsWithCR(l)
    ensures KeepNonBlank(Lines(c)) != [] ==> Lines(Normalise(c)) == KeepNonBlank(Lines(c))
    ensures KeepNonBlank(Lines(c)) == [] ==> Normalise(c) == "\n"
  {
    var kept := KeepNonBlank(Lines(c));
    if kept != [] {
      forall k | 0 <= k < |kept| ensures '\n' !in kept[k] && !EndsWithCR(kept[k]) {
        assert kept[k] in Lines(c);
      }
      LinesOfJoined(kept);
    }
  }

  /** The clean-up is idempotent when no line ends in a carriage return. */
  lemma NormaliseIdempotent(c: string)
    requires forall l :: l in Lines(c) ==> !EndsWithCR(l)
    ensures Normalise(Normalise(c)) == Normalise(c)
  {
    var kept := KeepNonBlank(Lines(c));
    NormaliseLines(c);
    if kept == [] {
      assert Lines("\n") == [""];
      assert KeepNonBlank([""]) == [];
    } else {
      KeepNonBlankIdempotent(Lines(c));
    }
  }

  /** The clean-up is not idempotent in general: `str::lines` strips one
      carriage return per pass, so for a non-blank line `l`, "l\r\r\n"
      becomes "l\r\n" and then "l\n". */
  lemma NormaliseCarriageReturns(l: string)
    requires '\n' !in l && !IsBlank(l)
    ensures Normalise(l + "\r\r\n") == l + "\r\n"
    ensures Normalise(l + "\r\n") == l + "\n"
  {
    var l1, l2 := l + "\r", l + "\r\r";
    assert l2 + "\n" == l + "\r\r\n" && l1 + "\n" == l + "\r\n";
    assert DropCR(l2) == l1 && DropCR(l1) == l;
    assert l1[..|l|] == l;
    NotBlankExtended(l, "\r");
    NormaliseOneLine(l2);
    NormaliseOneLine(l1);
  }

  /** Appending to a non-blank string keeps it non-blank. */
  lemma NotBlankExtended(l: string, x: string)
    requires !IsBlank(l)
    ensures !IsBlank(l + x)
  {
    var k :| 0 <= k < |l| && !IsWhitespace(l[k]);
    assert (l + x)[k] == l[k];
  }

  /** One newline-terminated, non-blank line is cleaned up to itself less
      one trailing carriage return. */
  lemma NormaliseOneLine(l: string)
    requires '\n' !in l && !IsBlank(DropCR(l))
    ensures Normalise(l + "\n") == DropCR(l) + "\n"
  {
    LinesOfOne(l);
    assert [DropCR(l)][1..] == [];
  }

  /** A single newline-terminated line splits into that line, less one
      trailing carriage return. */
  lemma LinesOfOne(l: string)
    requires '\n' !in l
    ensures Lines(l + "\n") == [DropCR(l)]
  {
    IndexOfAfter(l, '\n', "");
    assert l + ['\n'] + "" == l + "\n";
    assert (l + "\n")[..|l|] == l;
    assert (l + "\n")[|l| + 1..] == "";
  }

  /** The lines of three newline-terminated lines. */
  lemma LinesOfThree(a: string, b: string, d: string)
    requires '\n' !in a && '\n' !in b && '\n' !in d
    requires !EndsWithCR(a) && !EndsWithCR(d)
    ensures Lines(a + "\n" + b + "\n" + d + "\n") == [a, DropCR(b), d]
  {
    ThreeLinesRegroup(a, b, d);
    LinesOfTwo(b, d);
    LinesStep(a, b + "\n" + (d + "\n"));
  }

  /** The lines of two newline-terminated lines. */
  lemma LinesOfTwo(b: string, d: string)
    requires '\n' !in b && '\n' !in d && !EndsWithCR(d)
    ensures Lines(b + "\n" + (d + "\n")) == [DropCR(b), d]
  {
    LinesOfOne(d);
    LinesStep(b, d + "\n");
  }

  lemma ThreeLinesRegroup(a: string, b: string, d: string)
    ensures a + "\n" + b + "\n" + d + "\n" == a + "\n" + (b + "\n" + (d + "\n"))
  {
  }

  /** Dropping carriage returns keeps a whitespace-only line blank. */
  lemma DropCRBlank(b: string)
    requires IsBlank(b)
    ensures IsBlank(DropCR(b))
  {
  }

  /** Of three lines, a blank middle one is the one dropped. */
  lemma KeepNonBlankMiddle(a: string, b: string, d: string)
    requires !IsBlank(a) && IsBlank(b) && !IsBlank(d)
    ensures KeepNonBlank([a, b, d]) == [a, d]
  {
    var ls := [a, b, d];
    assert ls[1..] == [b, d] && ls[1..][1..] == [d] && [d][1..] == [];
    assert KeepNonBlank([d]) == [d];
  }

  /** The clean-up creates no occurrence of a pattern without `\n`. */
  lemma NormaliseKeepsAbsence(c: string, p: string)
    requires |p| > 0 && '\n' !in p && !Contains(c, p)
    ensures !Contains(Normalise(c), p)
  {
    NoneInLines(c, p);
    var kept := KeepNonBlank(Lines(c));
    forall l | l in kept ensures !Contains(l, p) {
      var k :| 0 <= k < |kept| && kept[k] == l;
    }
    NoneInJoined(kept, p);
  }

  /** Only the first pattern matters: once `export KEY=` is gone the quoted
      forms, which extend it, cannot occur. */
  lemma QuotedPatternsRedundant(c: string, key: string)
    ensures RemoveExistingVar(c, key) == Normalise(StripAssignments(c, AssignPrefix(key)))
  {
    var p := AssignPrefix(key);
    var c1 := StripAssignments(c, p);
    NoneOfExtension(c1, p, "\"");
    NoneOfExtension(c1, p, "'");
  }

  /** The assignment prefix holds a `\n` only when the key does. */
  lemma PrefixWithoutNewline(key: string)
    requires '\n' !in key
    ensures '\n' !in AssignPrefix(key)
  {
    assert '\n' !in "export " && '\n' !in "=";
  }

  /** After the removal no assignment form of `key` remains, provided the key
      holds no `\n` (one that does could be recreated when blank lines are
      joined away). */
  lemma RemoveLeavesNoAssignment(c: string, key: string)
    requires '\n' !in key
    ensures !Contains(RemoveExistingVar(c, key), AssignPrefix(key))
    ensures !Contains(RemoveExistingVar(c, key), AssignPrefix(key) + "\"")
    ensures !Contains(RemoveExistingVar(c, key), AssignPrefix(key) + "'")
  {
    var p := AssignPrefix(key);
    var s := StripAssignments(c, p);
    var r := RemoveExistingVar(c, key);
    QuotedPatternsRedundant(c, key);
    assert r == Normalise(s);
    PrefixWithoutNewline(key);
    NormaliseKeepsAbsence(s, p);
    NoneOfExtension(r, p, "\"");
    NoneOfExtension(r, p, "'");
  }

  /** The clean-up drops a whitespace-only line between two kept lines. */
  lemma NormaliseDropsBlankMiddle(a: string, b: string, d: string)
    requires '\n' !in a && '\n' !in b && '\n' !in d
    requires !IsBlank(a) && IsBlank(b) && !IsBlank(d)
    requires !EndsWithCR(a) && !EndsWithCR(d)
    ensures Normalise(a + "\n" + b + "\n" + d + "\n") == a + "\n" + d + "\n"
  {
    var c := a + "\n" + b + "\n" + d + "\n";
    LinesOfThree(a, b, d);
    DropCRBlank(b);
    KeepNonBlankMiddle(a, DropCR(b), d);
    assert Join([a, d], "\n") == a + "\n" + d by {
      assert [a, d][1..] == [d];
    }
  }

  /** Dropping a blank line can join the end of one line to the start of
      the next and so form an assignment the content did not hold; unsetting
      a key without spaces then writes that assignment. */
  lemma UnsetCanReform(key: string, a: string, b: string, d: string)
    requires ' ' !in key
    requires '\n' !in a && '\n' !in b && '\n' !in d
    requires !IsBlank(a) && IsBlank(b) && !IsBlank(d)
    requires !EndsWithCR(a) && !EndsWithCR(d)
    requires !Contains(a + "\n" + b + "\n" + d + "\n", AssignPrefix(key))
    requires IsAt(a + "\n" + d + "\n", AssignPrefix(key), 0)
    ensures Contains(SetPermanentEnv(Readable(a + "\n" + b + "\n" + d + "\n"), key, None).value, AssignPrefix(key))
  {
    RemoveWithoutAssignment(a + "\n" + b + "\n" + d + "\n", key);
    NormaliseDropsBlankMiddle(a, b, d);
  }

  /** The pieces of the counterexample below: "export A\n \n=x\n" holds
      no `export A\n=`, and without its blank middle line starts with one. */
  lemma NewlineKeyWitness()
    ensures !IsBlank("export A") && !IsBlank("=x") && IsBlank(" ")
    ensures !Contains("export A" + "\n" + " " + "\n" + "=x" + "\n", AssignPrefix("A\n"))
    ensures IsAt("export A" + "\n" + "=x" + "\n", AssignPrefix("A\n"), 0)
  {
    var c := "export A" + "\n" + " " + "\n" + "=x" + "\n";
    var p := AssignPrefix("A\n");
    assert !IsWhitespace("export A"[0]) && !IsWhitespace("=x"[0]);
    assert c == "export A\n \n=x\n" && p == "export A\n=";
    forall i | 0 <= i <= |c| - |p| ensures !IsAt(c, p, i) {
      if i == 0 {
        Mismatch(c, p, 0, 9);
      } else {
        Mismatch(c, p, i, 0);
      }
    }
  }

  /** A key holding `\n` passes the input check, yet unsetting it can write
      an assignment of it that the file did not hold: with key "A\n", the
      content "export A\n \n=x\n" has no `export A\n=`, but dropping its
      blank middle line creates one. */
  lemma NewlineKeyReforms()
    ensures ValidateEnvVar("A\n", None).Ok?
    ensures !Contains("export A" + "\n" + " " + "\n" + "=x" + "\n", AssignPrefix("A\n"))
    ensures Contains(SetPermanentEnv(Readable("export A" + "\n" + " " + "\n" + "=x" + "\n"), "A\n", None).value, AssignPrefix("A\n"))
  {
    NewlineKeyWitness();
    UnsetCanReform("A\n", "export A", " ", "=x");
  }

  /** Content holding no assignment of `key` is only cleaned up. */
  lemma RemoveWithoutAssignment(c: string, key: string)
    requires !Contains(c, AssignPrefix(key))
    ensures RemoveExistingVar(c, key) == Normalise(c)
  {
    QuotedPatternsRedundant(c, key);
  }

  /** Lines of content without carriage returns never end in one. */
  lemma NoCarriageReturnLines(c: string)
    requires '\r' !in c
    ensures forall l :: l in Lines(c) ==> !EndsWithCR(l)
  {
    CharNotInLines(c, '\r');
  }

  /** A set or unset keeps the rest of the file: for content without `\r`
      and without an assignment of `key`, the text in front of the appended
      line splits into exactly the non-blank lines of the old content, in
      order, or is "\n" when there are none. */
  lemma SetKeepsOtherLines(existing: RcFile, key: string, value: Option<string>)
    requires ValidateEnvVar(key, value).Ok?
    requires '\r' !in InitialContent(existing)
    requires !Contains(InitialContent(existing), AssignPrefix(key))
    ensures var c := InitialContent(existing);
      var tail := if value.Some? then AssignLine(key, value.value) else "";
      var out := SetPermanentEnv(existing, key, value).value;
      && EndsWith(out, tail)
      && (KeepNonBlank(Lines(c)) != [] ==> Lines(out[..|out| - |tail|]) == KeepNonBlank(Lines(c)))
      && (KeepNonBlank(Lines(c)) == [] ==> out[..|out| - |tail|] == "\n")
  {
    var c := InitialContent(existing);
    SetWithoutAssignment(existing, key, value);
    FrontOfAppend(Normalise(c), if value.Some? then AssignLine(key, value.value) else "");
    NormaliseWithoutCR(c);
  }

  /** Without an assignment of `key` in the file, a set or unset writes the
      cleaned-up content followed by the new line, if any. */
  lemma SetWithoutAssignment(existing: RcFile, key: string, value: Option<string>)
    requires ValidateEnvVar(key, value).Ok?
    requires !Contains(InitialContent(existing), AssignPrefix(key))
    ensures SetPermanentEnv(existing, key, value).value ==
      Normalise(InitialContent(existing)) + (if value.Some? then AssignLine(key, value.value) else "")
  {
    RemoveWithoutAssignment(InitialContent(existing), key);
  }

  /** `NormaliseLines` for content without carriage returns. */
  lemma NormaliseWithoutCR(c: string)
    requires '\r' !in c
    ensures KeepNonBlank(Lines(c)) != [] ==> Lines(Normalise(c)) == KeepNonBlank(Lines(c))
    ensures KeepNonBlank(Lines(c)) == [] ==> Normalise(c) == "\n"
  {
    NoCarriageReturnLines(c);
    NormaliseLines(c);
  }

  /** What was appended can be split off again. */
  lemma FrontOfAppend(a: string, tail: string)
    ensures EndsWith(a + tail, tail) && (a + tail)[..|a + tail| - |tail|] == a
  {
    assert (a + tail)[|a|..] == tail;
  }

  /** Removing twice is removing once, for a key without `\n` and content
      without carriage returns. */
  lemma RemoveIdempotent(c: string, key: string)
    requires '\n' !in key && '\r' !in c
    ensures RemoveExistingVar(RemoveExistingVar(c, key), key) == RemoveExistingVar(c, key)
  {
    var p := AssignPrefix(key);
    var s := StripAssignments(c, p);
    QuotedPatternsRedundant(c, key);
    RemoveLeavesNoAssignment(c, key);
    RemoveWithoutAssignment(RemoveExistingVar(c, key), key);
    NoCarriageReturnLines(s);
    NormaliseIdempotent(s);
  }

  /** In an appended assignment line, the assignment prefix occurs only at
      its start, for a key without spaces or `\n` and a value that does not
      itself hold the prefix. */
  lemma AssignLineOccurrences(key: string, v: string)
    requires ' ' !in key && '\n' !in key && !Contains(v, AssignPrefix(key))
    ensures forall i :: IsAt(AssignLine(key, v), AssignPrefix(key), i) <==> i == 0
  {
    var p, a := AssignPrefix(key), AssignLine(key, v);
    AssignLineLayout(key, v);
    assert a[..|p|] == p;
    forall i | 0 < i <= |a| - |p| ensures !IsAt(a, p, i) {
      NoPrefixAtOffset(key, v, i);
    }
  }

  /** Where each piece of the assignment line sits. */
  lemma AssignLineLayout(key: string, v: string)
    ensures var p, a, n := AssignPrefix(key), AssignLine(key, v), |key|;
      && |p| == n + 8 && |a| == n + 11 + |v|
      && p[..7] == "export " && p[7..n + 7] == key && p[n + 7] == '='
      && a[..n + 8] == p && a[n + 8] == '"' && a[n + 9..n + 9 + |v|] == v
      && a[n + 9 + |v|] == '"' && a[n + 10 + |v|] == '\n'
  {
  }

  /** The prefix does not occur in the assignment line past its start. */
  lemma NoPrefixAtOffset(key: string, v: string, i: nat)
    requires ' ' !in key && '\n' !in key && !Contains(v, AssignPrefix(key))
    requires 0 < i <= |AssignLine(key, v)| - |AssignPrefix(key)|
    ensures !IsAt(AssignLine(key, v), AssignPrefix(key), i)
  {
    var n := |key|;
    AssignLineLayout(key, v);
    if i <= n + 2 {
      NoPrefixFromKey(key, v, i);
    } else if i <= n + 8 {
      NoPrefixFromQuote(key, v, i);
    } else if i + n + 7 >= n + 9 + |v| {
      Mismatch(AssignLine(key, v), AssignPrefix(key), i, n + 7);
    } else {
      NoPrefixFromValue(key, v, i);
    }
  }

  /** A shifted prefix would need a space where the key, `=` or the
      opening quote stands. */
  lemma NoPrefixFromKey(key: string, v: string, i: nat)
    requires ' ' !in key && 0 < i <= |key| + 2
    ensures !IsAt(AssignLine(key, v), AssignPrefix(key), i)
  {
    var p, a, n := AssignPrefix(key), AssignLine(key, v), |key|;
    AssignLineLayout(key, v);
    if i + 6 < n + 7 {
      assert a[i + 6] == a[..n + 8][i + 6] == p[i + 6] == p[7..n + 7][i - 1];
    }
    assert p[6] == p[..7][6];
    Mismatch(a, p, i, 6);
  }

  /** A prefix starting after the key would meet the opening quote inside
      "export ". */
  lemma NoPrefixFromQuote(key: string, v: string, i: nat)
    requires |key| + 2 < i <= |key| + 8
    ensures !IsAt(AssignLine(key, v), AssignPrefix(key), i)
  {
    var p, a, n := AssignPrefix(key), AssignLine(key, v), |key|;
    AssignLineLayout(key, v);
    var k := n + 8 - i;
    assert p[k] == p[..7][k];
    Mismatch(a, p, i, k);
  }

  /** A prefix inside the value would be a prefix in the value. */
  lemma NoPrefixFromValue(key: string, v: string, i: nat)
    requires !Contains(v, AssignPrefix(key))
    requires |key| + 9 <= i && i + |key| + 8 <= |key| + 9 + |v|
    ensures !IsAt(AssignLine(key, v), AssignPrefix(key), i)
  {
    var p, a, n := AssignPrefix(key), AssignLine(key, v), |key|;
    AssignLineLayout(key, v);
    var j := i - n - 9;
    var w := a[i..i + |p|];
    assert w == v[j..j + |p|] by {
      forall k | 0 <= k < |p| ensures w[k] == v[j..j + |p|][k] {
        assert w[k] == a[n + 9..n + 9 + |v|][j + k];
      }
    }
    NotAt(v, p, j);
  }

  /** After content that ends in `\n` and holds no assignment prefix, an
      appended assignment line holds the only occurrence. */
  lemma AppendOccurrences(x: string, key: string, v: string)
    requires EndsWith(x, "\n") && !Contains(x, AssignPrefix(key))
    requires ' ' !in key && '\n' !in key && !Contains(v, AssignPrefix(key))
    ensures forall i :: IsAt(x + AssignLine(key, v), AssignPrefix(key), i) <==> i == |x|
  {
    var p, a := AssignPrefix(key), AssignLine(key, v);
    var s := x + a;
    AssignLineOccurrences(key, v);
    assert '\n' !in p;
    assert s[|x|..|x| + |p|] == a[..|p|];
    assert IsAt(a, p, 0);
    forall i | 0 <= i <= |s| - |p| && i != |x| ensures !IsAt(s, p, i) {
      var w := s[i..i + |p|];
      if i + |p| <= |x| {
        assert w == x[i..i + |p|];
        assert !IsAt(x, p, i);
      } else if i < |x| {
        assert w[|x| - 1 - i] == '\n';
        assert p[|x| - 1 - i] in p;
      } else {
        assert w == a[i - |x|..i - |x| + |p|];
        assert !IsAt(a, p, i - |x|);
      }
    }
  }

  /** The line cut at the start of an appended assignment is that line. */
  lemma CutAppended(x: string, key: string, v: string)
    requires '\n' !in key && '\n' !in v
    ensures DeleteLineAt(x + AssignLine(key, v), |x|) == x
  {
    var s := x + AssignLine(key, v);
    AssignLineNewline(key, v);
    assert s[|x|..] == AssignLine(key, v);
    assert s[..|x|] == x;
  }

  /** The only `\n` of an assignment line is its last character. */
  lemma AssignLineNewline(key: string, v: string)
    requires '\n' !in key && '\n' !in v
    ensures IndexOf(AssignLine(key, v), '\n') == Some(|AssignLine(key, v)| - 1)
  {
    var a' := AssignPrefix(key) + "\"" + v + "\"";
    PrefixWithoutNewline(key);
    assert '\n' !in a' by {
      assert '\n' !in "\"";
    }
    assert AssignLine(key, v) == a' + ['\n'] + [];
    IndexOfAfter(a', '\n', []);
  }

  /** Stripping the prefix from content followed by one appended assignment
      line removes exactly that line. */
  lemma StripAppended(x: string, key: string, v: string)
    requires EndsWith(x, "\n") && !Contains(x, AssignPrefix(key))
    requires ' ' !in key && '\n' !in key && '\n' !in v && !Contains(v, AssignPrefix(key))
    ensures StripAssignments(x + AssignLine(key, v), AssignPrefix(key)) == x
  {
    var p, s := AssignPrefix(key), x + AssignLine(key, v);
    AppendOccurrences(x, key, v);
    assert IsAt(s, p, |x|);
    assert Find(s, p) == Some(|x|);
    CutAppended(x, key, v);
  }

  /** Removing the assignment just appended to a rewritten file gives the
      rewritten file back. */
  lemma RemoveUndoesAppend(c: string, key: string, v: string)
    requires ' ' !in key && '\n' !in key && '\n' !in v && !Contains(v, AssignPrefix(key))
    requires '\r' !in c
    ensures RemoveExistingVar(RemoveExistingVar(c, key) + AssignLine(key, v), key)
         == RemoveExistingVar(c, key)
  {
    var p := AssignPrefix(key);
    var s := StripAssignments(c, p);
    var x := RemoveExistingVar(c, key);
    QuotedPatternsRedundant(c, key);
    RemoveLeavesNoAssignment(c, key);
    StripAppended(x, key, v);
    QuotedPatternsRedundant(x + AssignLine(key, v), key);
    NoCarriageReturnLines(s);
    NormaliseIdempotent(s);
  }

  /** The appended assignment is the only one in the written content, for a
      key without `\n` and a value that does not itself hold the prefix. */
  lemma SetLeavesOneAssignment(existing: RcFile, key: string, v: string)
    requires ValidateEnvVar(key, Some(v)).Ok?
    requires '\n' !in key && !Contains(v, AssignPrefix(key))
    ensures var out := SetPermanentEnv(existing, key, Some(v)).value;
      forall i :: IsAt(out, AssignPrefix(key), i) <==> i == |out| - |AssignLine(key, v)|
  {
    var c := InitialContent(existing);
    RemoveLeavesNoAssignment(c, key);
    AppendOccurrences(RemoveExistingVar(c, key), key, v);
  }

  /** A later call overrides an earlier set completely: after setting `key`,
      setting or unsetting it again writes what that call alone would have
      written. */
  lemma SetOverridesPrevious(existing: RcFile, key: string, v: string, value: Option<string>)
    requires ValidateEnvVar(key, Some(v)).Ok?
    requires '\n' !in key && '\n' !in v && !Contains(v, AssignPrefix(key))
    requires '\r' !in InitialContent(existing)
    ensures var first := SetPermanentEnv(existing, key, Some(v));
      SetPermanentEnv(Readable(first.value), key, value) == SetPermanentEnv(existing, key, value)
  {
    RemoveUndoesAppend(InitialContent(existing), key, v);
  }

  /** Unsetting succeeds for any key without spaces, whatever the file
      holds, and leaves no assignment of the key. */
  lemma UnsetRemovesAssignment(existing: RcFile, key: string)
    requires ' ' !in key && '\n' !in key
    ensures SetPermanentEnv(existing, key, None).Ok?
    ensures !Contains(SetPermanentEnv(existing, key, None).value, AssignPrefix(key))
  {
    RemoveLeavesNoAssignment(InitialContent(existing), key);
  }

  /** Unsetting twice writes what unsetting once wrote. */
  lemma UnsetIdempotent(existing: RcFile, key: string)
    requires ' ' !in key && '\n' !in key && '\r' !in InitialContent(existing)
    ensures var first := SetPermanentEnv(existing, key, None);
      SetPermanentEnv(Readable(first.value), key, None) == first
  {
    RemoveIdempotent(InitialContent(existing), key);
  }

  /** The cut starts at the match, not at the start of its line: the text
      `h` in front of the first assignment stays and is joined to the line
      after it (so in "# export K=1\nexport B=2\n" the comment marker ends
      up in front of B's assignment). */
  lemma CutKeepsLineHead(h: string, l: string, t: string, p: string)
    requires |p| > 0 && p <= l && '\n' !in l
    requires forall i :: 0 <= i < |h| ==> !IsAt(h + l + "\n" + t, p, i)
    ensures StripAssignments(h + l + "\n" + t, p) == StripAssignments(h + t, p)
  {
    var c := h + l + "\n" + t;
    MatchAtLineStart(h, l, "\n" + t, p);
    assert c == h + l + ("\n" + t);
    FindIs(c, p, |h|);
    StripStep(c, p, |h|);
    CutLine(h, l, t);
  }

  /** A line starting with `p` holds a match where it starts. */
  lemma MatchAtLineStart(h: string, l: string, rest: string, p: string)
    requires p <= l
    ensures IsAt(h + l + rest, p, |h|)
  {
    assert (h + l + rest)[|h|..|h| + |p|] == l[..|p|];
  }

  /** One turn of the corrected loop: the cut at the first match. */
  lemma StripStep(c: string, p: string, pos: nat)
    requires |p| > 0 && Find(c, p) == Some(pos)
    ensures pos < |c|
    ensures StripAssignments(c, p) == StripAssignments(DeleteLineAt(c, pos), p)
  {
  }

  /** The cut at the start of line `l` removes `l` and its `\n`. */
  lemma CutLine(h: string, l: string, t: string)
    requires '\n' !in l
    ensures DeleteLineAt(h + l + "\n" + t, |h|) == h + t
  {
    var c := h + l + "\n" + t;
    assert c[|h|..] == l + ['\n'] + t;
    IndexOfAfter(l, '\n', t);
    assert c[..|h|] == h;
    assert c[|h| + |l| + 1..] == t;
  }
}

=== FILE: interactive.dfy ===
/** The list screen of the interactive mode (src/interactive.rs): a cursor
    over a snapshot of the environment, a vertical scroll offset that follows
    it, a horizontal scroll offset into the selected value, and the key
    handling that moves them. Drawing and the terminal loop are not modelled. */
module Interactive {
  import opened Text

  datatype Mode = List | EditKey | EditValue | CreateNew

  datatype Modifier = Shift | Control | Alt | Super | Hyper | Meta

  /** The key codes the handler tells apart; every other code is `Other`. */
  datatype KeyCode = Char(c: char) | Up | Down | Left | Right | Other

  /** A key press: its code and the exact set of modifiers held. */
  datatype KeyEvent = KeyEvent(code: KeyCode, modifiers: set<Modifier>)

  datatype InteractiveMode = InteractiveMode(
    mode: Mode,
    exit: bool,
    entries: seq<(string, string)>,
    currentIndex: nat,
    scrollOffset: nat,
    visibleOptions: nat,
    truncationLen: nat,
    valueScrollOffset: nat)

  const DefaultVisibleOptions: nat := 30
  const DefaultTruncationLen: nat := 30

  /** `usize::saturating_sub`. */
  function SaturatingSub(a: nat, b: nat): (r: nat)
    ensures r + b >= a && (a >= b ==> r + b == a)
  {
    if a >= b then a - b else 0
  }

  function Min(a: nat, b: nat): nat {
    if a <= b then a else b
  }

  /** The last valid cursor position (0 for an empty list). */
  function LastIndex(s: InteractiveMode): nat {
    SaturatingSub(|s.entries|, 1)
  }

  /** UTF-8 length of the selected value, or 0 when nothing is selected. */
  function SelectedWidth(s: InteractiveMode): nat {
    if s.currentIndex < |s.entries| then Utf8Len(s.entries[s.currentIndex].1) else 0
  }

  /** The state the handler keeps: the cursor is on an entry (or at 0 when
      there is none), the first shown row is not below the cursor, and the
      value offset stays within the selected value. */
  predicate Valid(s: InteractiveMode) {
    && s.currentIndex <= LastIndex(s)
    && s.scrollOffset <= s.currentIndex
    && s.valueScrollOffset <= SelectedWidth(s)
  }

  /** Everything but the cursor and the offsets is left alone. */
  predicate SameFrame(s: InteractiveMode, r: InteractiveMode) {
    r.mode == s.mode && r.exit == s.exit && r.entries == s.entries
    && r.visibleOptions == s.visibleOptions && r.truncationLen == s.truncationLen
  }

  /** `InteractiveMode::default` over a snapshot of the environment. */
  function Init(snapshot: seq<(string, string)>): (s: InteractiveMode)
    ensures Valid(s) && s.mode == List && !s.exit && s.entries == snapshot
    ensures s.currentIndex == 0 && s.scrollOffset == 0 && s.valueScrollOffset == 0
    ensures s.visibleOptions == 30 && s.truncationLen == 30 && InBand(s)
  {
    InteractiveMode(List, false, snapshot, 0, 0, DefaultVisibleOptions, DefaultTruncationLen, 0)
  }

  /** How far the cursor may run below the first shown row before Down
      scrolls: the visible rows less 8, less 4 more, each stopping at 0. */
  function ScrollMargin(s: InteractiveMode): nat {
    SaturatingSub(SaturatingSub(s.visibleOptions, 8), 4)
  }

  /** The cursor is no further below the first shown row than the margin. */
  predicate InBand(s: InteractiveMode) {
    s.currentIndex <= s.scrollOffset + ScrollMargin(s)
  }

  /** The arrow-down arm: one entry further, never past the last; the value
      offset resets; the list scrolls by one row once the cursor passes the
      trigger row. */
  function MoveDown(s: InteractiveMode): (r: InteractiveMode)
    ensures SameFrame(s, r) && r.valueScrollOffset == 0
    ensures Valid(s) ==> Valid(r)
    ensures Valid(s) ==> (r.currentIndex == s.currentIndex + 1 <==> s.currentIndex < LastIndex(s))
    ensures Valid(s) && s.currentIndex == LastIndex(s) ==> r.currentIndex == s.currentIndex
    ensures r.scrollOffset == s.scrollOffset || r.scrollOffset == s.scrollOffset + 1
    ensures r.scrollOffset == s.scrollOffset + 1 <==> r.currentIndex > s.scrollOffset + ScrollMargin(s)
    ensures InBand(s) ==> InBand(r)
  {
    var index := Min(s.currentIndex + 1, LastIndex(s));
    var visibleArea := SaturatingSub(s.visibleOptions, 8);
    var trigger := s.scrollOffset + SaturatingSub(visibleArea, 4);
    var scroll := if index > trigger then s.scrollOffset + 1 else s.scrollOffset;
    s.(currentIndex := index, valueScrollOffset := 0, scrollOffset := scroll)
  }

  /** The arrow-up arm: one entry back unless at the top; moving resets the
      value offset and pulls the first shown row up to the cursor. */
  function MoveUp(s: InteractiveMode): (r: InteractiveMode)
    ensures SameFrame(s, r)
    ensures Valid(s) ==> Valid(r)
    ensures s.currentIndex == 0 ==> r == s
    ensures s.currentIndex > 0 ==> r.currentIndex == s.currentIndex - 1 && r.valueScrollOffset == 0
    ensures r.scrollOffset <= s.scrollOffset
    ensures s.currentIndex > 0 ==> r.scrollOffset == Min(s.scrollOffset, r.currentIndex)
    ensures InBand(s) ==> InBand(r)
  {
    if s.currentIndex > 0 then
      var index := s.currentIndex - 1;
      var scroll := if index < s.scrollOffset then index else s.scrollOffset;
      s.(currentIndex := index, valueScrollOffset := 0, scrollOffset := scroll)
    else s
  }

  /** The arrow-left arm: the value offset moves back one, stopping at 0. */
  function ScrollLeft(s: InteractiveMode): (r: InteractiveMode)
    ensures SameFrame(s, r) && r.currentIndex == s.currentIndex && r.scrollOffset == s.scrollOffset
    ensures Valid(s) ==> Valid(r)
    ensures r.valueScrollOffset == SaturatingSub(s.valueScrollOffset, 1)
  {
    if s.valueScrollOffset > 0 then s.(valueScrollOffset := s.valueScrollOffset - 1) else s
  }

  /** The arrow-right arm: the value offset moves on one, stopping at the
      selected value's byte length; nothing happens with no selection. */
  function ScrollRight(s: InteractiveMode): (r: InteractiveMode)
    ensures SameFrame(s, r) && r.currentIndex == s.currentIndex && r.scrollOffset == s.scrollOffset
    ensures Valid(s) ==> Valid(r)
    ensures Valid(s) ==> r.valueScrollOffset == Min(s.valueScrollOffset + 1, SelectedWidth(s))
  {
    if s.currentIndex < |s.entries| && s.valueScrollOffset < Utf8Len(s.entries[s.currentIndex].1) then
      s.(valueScrollOffset := s.valueScrollOffset + 1)
    else s
  }

  /** Ctrl+R: a fresh snapshot with the cursor and offsets back at 0. */
  function Reload(s: InteractiveMode, snapshot: seq<(string, string)>): (r: InteractiveMode)
    ensures Valid(r) && r.entries == snapshot
    ensures r.mode == s.mode && r.exit == s.exit && r.visibleOptions == s.visibleOptions
    ensures r.truncationLen == s.truncationLen && InBand(r)
    ensures r.currentIndex == 0 && r.scrollOffset == 0 && r.valueScrollOffset == 0
  {
    s.(entries := snapshot, currentIndex := 0, scrollOffset := 0, valueScrollOffset := 0)
  }

  /** The key is `lower` or `upper` with Control as the only modifier. */
  predicate IsControl(ev: KeyEvent, lower: char, upper: char) {
    (ev.code == Char(lower) || ev.code == Char(upper)) && ev.modifiers == {Control}
  }

  /** `handle_key_event`: Ctrl+Q asks to leave, the arrows move, Ctrl+R
      reloads from `snapshot` (what the environment holds at that moment),
      and every other key is ignored. */
  function HandleKeyEvent(s: InteractiveMode, ev: KeyEvent, snapshot: seq<(string, string)>): (r: InteractiveMode)
    ensures Valid(s) ==> Valid(r)
    ensures r.exit <==> s.exit || IsControl(ev, 'q', 'Q')
    ensures r.mode == s.mode && r.visibleOptions == s.visibleOptions && r.truncationLen == s.truncationLen
    ensures r.entries != s.entries ==> IsControl(ev, 'r', 'R') && r.entries == snapshot
    ensures IsControl(ev, 'r', 'R') ==> r == Reload(s, snapshot)
    ensures IsControl(ev, 'q', 'Q') ==> r == s.(exit := true)
    // Without Ctrl+Q, each arrow is its own move.
    ensures !IsControl(ev, 'q', 'Q') ==>
      && (ev.code == Down ==> r == MoveDown(s))
      && (ev.code == Up ==> r == MoveUp(s))
      && (ev.code == Left ==> r == ScrollLeft(s))
      && (ev.code == Right ==> r == ScrollRight(s))
    ensures InBand(s) ==> InBand(r)
  {
    if IsControl(ev, 'q', 'Q') then s.(exit := true)
    else
      match ev.code
      case Down => MoveDown(s)
      case Up => MoveUp(s)
      case Left => ScrollLeft(s)
      case Right => ScrollRight(s)
      case _ => if IsControl(ev, 'r', 'R') then Reload(s, snapshot) else s
  }

  /** Keys other than the arrows, Ctrl+Q and Ctrl+R change nothing; a plain
      `q` included. */
  lemma OtherKeysIgnored(s: InteractiveMode, ev: KeyEvent, snapshot: seq<(string, string)>)
    requires ev.code !in {Up, Down, Left, Right}
    requires !IsControl(ev, 'q', 'Q') && !IsControl(ev, 'r', 'R')
    ensures HandleKeyEvent(s, ev, snapshot) == s
  {
  }

  /** `n` presses of the same key. */
  function Repeat(s: InteractiveMode, ev: KeyEvent, n: nat, snapshot: seq<(string, string)>): InteractiveMode
    decreases n
  {
    if n == 0 then s else Repeat(HandleKeyEvent(s, ev, snapshot), ev, n - 1, snapshot)
  }

  const DownKey := KeyEvent(Down, {})
  const UpKey := KeyEvent(Up, {})
  const LeftKey := KeyEvent(Left, {})
  const RightKey := KeyEvent(Right, {})

  /** Pressing down `n` times moves `n` entries, stopping at the last one. */
  lemma {:induction false} DownsStopAtLast(s: InteractiveMode, n: nat, snapshot: seq<(string, string)>)
    requires Valid(s)
    ensures Valid(Repeat(s, DownKey, n, snapshot))
    ensures Repeat(s, DownKey, n, snapshot).currentIndex == Min(s.currentIndex + n, LastIndex(s))
    ensures Repeat(s, DownKey, n, snapshot).entries == s.entries
    decreases n
  {
    if n > 0 {
      DownsStopAtLast(HandleKeyEvent(s, DownKey, snapshot), n - 1, snapshot);
    }
  }

  /** Pressing up `n` times moves `n` entries back, stopping at the top. */
  lemma {:induction false} UpsStopAtTop(s: InteractiveMode, n: nat, snapshot: seq<(string, string)>)
    requires Valid(s)
    ensures Valid(Repeat(s, UpKey, n, snapshot))
    ensures Repeat(s, UpKey, n, snapshot).currentIndex == SaturatingSub(s.currentIndex, n)
    decreases n
  {
    if n > 0 {
      UpsStopAtTop(HandleKeyEvent(s, UpKey, snapshot), n - 1, snapshot);
    }
  }

  /** Pressing right `n` times moves the value offset `n` bytes, stopping at
      the end of the selected value. */
  lemma {:induction false} RightsStopAtEnd(s: InteractiveMode, n: nat, snapshot: seq<(string, string)>)
    requires Valid(s)
    ensures Repeat(s, RightKey, n, snapshot).valueScrollOffset == Min(s.valueScrollOffset + n, SelectedWidth(s))
    decreases n
  {
    if n > 0 {
      RightsStopAtEnd(HandleKeyEvent(s, RightKey, snapshot), n - 1, snapshot);
    }
  }

  /** Pressing left `n` times moves the value offset `n` bytes back,
      stopping at 0. */
  lemma {:induction false} LeftsStopAtStart(s: InteractiveMode, n: nat, snapshot: seq<(string, string)>)
    ensures Repeat(s, LeftKey, n, snapshot).valueScrollOffset == SaturatingSub(s.valueScrollOffset, n)
    decreases n
  {
    if n > 0 {
      LeftsStopAtStart(HandleKeyEvent(s, LeftKey, snapshot), n - 1, snapshot);
    }
  }

  /** With at most 12 visible rows the scroll trigger is the first shown row,
      so a cursor on that row keeps it on the cursor under down and up. */
  lemma SmallWindowFollowsCursor(s: InteractiveMode, snapshot: seq<(string, string)>)
    requires Valid(s) && s.visibleOptions <= 12 && s.scrollOffset == s.currentIndex
    ensures var d := HandleKeyEvent(s, DownKey, snapshot); d.scrollOffset == d.currentIndex
    ensures var u := HandleKeyEvent(s, UpKey, snapshot); u.scrollOffset == u.currentIndex
  {
  }

  /** Down presses in a small window keep the first shown row on the cursor. */
  lemma {:induction false} SmallWindowDowns(s: InteractiveMode, n: nat, snapshot: seq<(string, string)>)
    requires Valid(s) && s.visibleOptions <= 12 && s.scrollOffset == s.currentIndex
    ensures var r := Repeat(s, DownKey, n, snapshot);
      Valid(r) && r.visibleOptions == s.visibleOptions && r.scrollOffset == r.currentIndex
      && r.entries == s.entries
    decreases n
  {
    if n > 0 {
      SmallWindowFollowsCursor(s, snapshot);
      SmallWindowDowns(HandleKeyEvent(s, DownKey, snapshot), n - 1, snapshot);
    }
  }

  /** Up presses in a small window keep the first shown row on the cursor. */
  lemma {:induction false} SmallWindowUps(s: InteractiveMode, n: nat, snapshot: seq<(string, string)>)
    requires Valid(s) && s.visibleOptions <= 12 && s.scrollOffset == s.currentIndex
    ensures var r := Repeat(s, UpKey, n, snapshot);
      Valid(r) && r.visibleOptions == s.visibleOptions && r.scrollOffset == r.currentIndex
    decreases n
  {
    if n > 0 {
      SmallWindowFollowsCursor(s, snapshot);
      SmallWindowUps(HandleKeyEvent(s, UpKey, snapshot), n - 1, snapshot);
    }
  }

  /** The scrolling scenario of the source's tests: with five visible rows
      and at least eleven entries, ten downs scroll the list, and five ups
      scroll it back part of the way. */
  lemma ScrollScenario(snapshot: seq<(string, string)>, reloads: seq<(string, string)>)
    requires |snapshot| >= 11
    ensures var down := Repeat(Init(snapshot).(visibleOptions := 5), DownKey, 10, reloads);
      down.scrollOffset == 10
      && Repeat(down, UpKey, 5, reloads).scrollOffset == 5
  {
    var s := Init(snapshot).(visibleOptions := 5);
    SmallWindowDowns(s, 10, reloads);
    DownsStopAtLast(s, 10, reloads);
    var down := Repeat(s, DownKey, 10, reloads);
    SmallWindowUps(down, 5, reloads);
    UpsStopAtTop(down, 5, reloads);
  }

  /** Ctrl+Q only sets the exit flag; Q without Control is ignored. */
  lemma QuitNeedsControl(s: InteractiveMode, snapshot: seq<(string, string)>)
    ensures HandleKeyEvent(s, KeyEvent(Char('q'), {Control}), snapshot) == s.(exit := true)
    ensures HandleKeyEvent(s, KeyEvent(Char('Q'), {Control, Shift}), snapshot) == s
    ensures HandleKeyEvent(s, KeyEvent(Char('q'), {}), snapshot) == s
  {
    assert KeyEvent(Char('Q'), {Control, Shift}).modifiers != {Control} by {
      assert Shift in KeyEvent(Char('Q'), {Control, Shift}).modifiers;
    }
  }
}

=== FILE: text.dfy ===
/** The string operations of Rust's `str` that the modelled code relies on:
    substring search, `find`, `lines`, `join`, `trim`, `replace`,
    `to_lowercase` and the UTF-8 length `len`. */
module Text {
  import opened Common

  /** `p` occurs in `s` starting at index `i`. */
  predicate IsAt(s: string, p: string, i: int) {
    0 <= i && i + |p| <= |s| && s[i..i + |p|] == p
  }

  /** `s.contains(p)`. */
  predicate Contains(s: string, p: string) {
    exists i | 0 <= i <= |s| - |p| :: IsAt(s, p, i)
  }

  /** `s.find(p)`: the leftmost occurrence of `p` in `s`. */
  function Find(s: string, p: string): (r: Option<nat>)
    ensures r.Some? ==> IsAt(s, p, r.value)
    ensures r.Some? ==> forall j :: 0 <= j < r.value ==> !IsAt(s, p, j)
    ensures r.None? <==> !Contains(s, p)
  {
    FindFrom(s, p, 0)
  }

  function FindFrom(s: string, p: string, from: nat): (r: Option<nat>)
    requires forall j :: 0 <= j < from ==> !IsAt(s, p, j)
    ensures r.Some? ==> IsAt(s, p, r.value)
    ensures r.Some? ==> forall j :: 0 <= j < r.value ==> !IsAt(s, p, j)
    ensures r.None? <==> !Contains(s, p)
    decreases |s| - from
  {
    if from + |p| > |s| then None
    else if s[from..from + |p|] == p then
      assert IsAt(s, p, from);
      Some(from)
    else FindFrom(s, p, from + 1)
  }

  /** `s.find(c)` for a single character. */
  function IndexOf(s: string, c: char): (r: Option<nat>)
    ensures r.Some? ==> r.value < |s| && s[r.value] == c && c !in s[..r.value]
    ensures r.None? <==> c !in s
  {
    if |s| == 0 then None
    else if s[0] == c then Some(0)
    else
      match IndexOf(s[1..], c)
      case None => None
      case Some(i) =>
        assert s[..i + 1] == [s[0]] + s[1..][..i];
        Some(i + 1)
  }

  /** A string without `p` has no occurrence of it at any index. */
  lemma NotAt(s: string, p: string, i: int)
    requires !Contains(s, p)
    ensures !IsAt(s, p, i)
  {
  }

  /** The leftmost occurrence is where `find` stops. */
  lemma FindIs(s: string, p: string, i: nat)
    requires IsAt(s, p, i)
    requires forall j :: 0 <= j < i ==> !IsAt(s, p, j)
    ensures Find(s, p) == Some(i)
  {
    assert 0 <= i <= |s| - |p|;
    assert Contains(s, p);
  }

  /** One differing character rules out an occurrence. */
  lemma Mismatch(s: string, p: string, i: nat, k: nat)
    requires k < |p| && i + k < |s| && s[i + k] != p[k]
    ensures !IsAt(s, p, i)
  {
    if i + |p| <= |s| {
      assert s[i..i + |p|][k] == s[i + k];
    }
  }

  /** An occurrence of `p` in a slice is an occurrence in the whole string. */
  lemma IsAtSlice(s: string, p: string, a: nat, b: nat, j: int)
    requires a <= b <= |s|
    requires IsAt(s[a..b], p, j)
    ensures IsAt(s, p, j + a)
  {
    forall k | 0 <= k < |p| ensures s[j + a..j + a + |p|][k] == p[k] {
      assert s[a..b][j..j + |p|][k] == p[k];
    }
  }

  /** A slice of a string without `p` has no `p` either. */
  lemma NoneInSlice(s: string, p: string, a: nat, b: nat)
    requires a <= b <= |s|
    requires !Contains(s, p)
    ensures !Contains(s[a..b], p)
  {
    forall j | 0 <= j <= |s[a..b]| - |p| ensures !IsAt(s[a..b], p, j) {
      NotAt(s, p, j + a);
      if IsAt(s[a..b], p, j) {
        IsAtSlice(s, p, a, b, j);
      }
    }
  }

  /** A string without `p` has no extension `p + q` of it either. */
  lemma NoneOfExtension(s: string, p: string, q: string)
    requires !Contains(s, p)
    ensures !Contains(s, p + q)
  {
    forall i | 0 <= i <= |s| - |p + q| ensures !IsAt(s, p + q, i) {
      NotAt(s, p, i);
      assert s[i..i + |p + q|][..|p|] == s[i..i + |p|];
    }
  }

  /** A character absent from `s` that `p` needs rules `p` out. */
  lemma NoneWithoutChar(s: string, p: string, k: nat)
    requires k < |p| && p[k] !in s
    ensures !Contains(s, p)
  {
  }

  /** Two pieces without `p`, glued by a separator that `p` lacks, have no `p`. */
  lemma NoneAcrossSeparator(a: string, sep: char, b: string, p: string)
    requires sep !in p
    requires !Contains(a, p) && !Contains(b, p)
    ensures !Contains(a + [sep] + b, p)
  {
    forall i | 0 <= i <= |a + [sep] + b| - |p| ensures !IsAt(a + [sep] + b, p, i) {
      var s := a + [sep] + b;
      if i + |p| <= |a| {
        assert s[i..i + |p|] == a[i..i + |p|];
        assert !IsAt(a, p, i);
      } else if i > |a| {
        assert s[i..i + |p|] == b[i - |a| - 1..i - |a| - 1 + |p|];
        assert !IsAt(b, p, i - |a| - 1);
      } else {
        assert s[i..i + |p|][|a| - i] == sep;
      }
    }
  }

  // ---------------------------------------------------------------------
  // Lines

  /** Drops one trailing carriage return, as `str::lines` does before `\n`. */
  function DropCR(l: string): string {
    if |l| > 0 && l[|l| - 1] == '\r' then l[..|l| - 1] else l
  }

  predicate EndsWithCR(l: string) {
    |l| > 0 && l[|l| - 1] == '\r'
  }

  /** `s.lines()`: split at each `\n`; the text before a `\n` loses one
      trailing `\r`; a final piece without `\n` is kept as it is; no empty
      line follows a trailing `\n`. */
  function Lines(s: string): (r: seq<string>)
    ensures forall k :: 0 <= k < |r| ==> '\n' !in r[k]
    ensures s == [] <==> r == []
    decreases |s|
  {
    if s == [] then []
    else
      match IndexOf(s, '\n')
      case None => [s]
      case Some(i) =>
        assert '\n' !in DropCR(s[..i]);
        [DropCR(s[..i])] + Lines(s[i + 1..])
  }

  /** `s` is made only of whitespace: `s.trim().is_empty()`. */
  predicate IsBlank(s: string) {
    forall k :: 0 <= k < |s| ==> IsWhitespace(s[k])
  }

  /** Rust's `char::is_whitespace` (the Unicode White_Space property). */
  predicate IsWhitespace(c: char) {
    || ('\t' <= c <= '\r')
    || c == ' '
    || c == '\U{0085}'
    || c == '\U{00A0}'
    || c == '\U{1680}'
    || ('\U{2000}' <= c <= '\U{200A}')
    || c == '\U{2028}'
    || c == '\U{2029}'
    || c == '\U{202F}'
    || c == '\U{205F}'
    || c == '\U{3000}'
  }

  /** The lines that are not whitespace-only, in order. */
  function KeepNonBlank(ls: seq<string>): (r: seq<string>)
    ensures IsSubsequence(r, ls)
    ensures forall x :: (multiset(r)[x] == if IsBlank(x) then 0 else multiset(ls)[x])
    ensures forall k :: 0 <= k < |r| ==> !IsBlank(r[k]) && r[k] in ls
    ensures forall k :: 0 <= k < |ls| && !IsBlank(ls[k]) ==> ls[k] in r
  {
    if ls == [] then []
    else
      var rest := KeepNonBlank(ls[1..]);
      assert ls == [ls[0]] + ls[1..];
      if IsBlank(ls[0]) then rest
      else
        assert ([ls[0]] + rest)[1..] == rest;
        [ls[0]] + rest
  }

  /** `ls.join(sep)`. */
  function Join(ls: seq<string>, sep: string): string {
    if |ls| == 0 then ""
    else if |ls| == 1 then ls[0]
    else ls[0] + sep + Join(ls[1..], sep)
  }

  // ---------------------------------------------------------------------
  // Facts about lines

  /** Every line of a string without `p` is without `p`. */
  lemma {:induction false} NoneInLines(s: string, p: string)
    requires !Contains(s, p)
    ensures forall l :: l in Lines(s) ==> !Contains(l, p)
    decreases |s|
  {
    if s != [] {
      match IndexOf(s, '\n')
      case None =>
      case Some(i) =>
        NoneInSlice(s, p, 0, i);
        assert s[0..i] == s[..i];
        NoneInSlice(s[..i], p, 0, |DropCR(s[..i])|);
        assert s[..i][0..|DropCR(s[..i])|] == DropCR(s[..i]);
        NoneInSlice(s, p, i + 1, |s|);
        assert s[i + 1..|s|] == s[i + 1..];
        NoneInLines(s[i + 1..], p);
    }
  }

  /** Every line of a string without the character `c` is without `c`. */
  lemma {:induction false} CharNotInLines(s: string, c: char)
    requires c !in s
    ensures forall l :: l in Lines(s) ==> c !in l
    decreases |s|
  {
    if s != [] {
      match IndexOf(s, '\n')
      case None =>
      case Some(i) =>
        var l := DropCR(s[..i]);
        assert forall k :: 0 <= k < |l| ==> l[k] == s[k];
        var t := s[i + 1..];
        assert forall k :: 0 <= k < |t| ==> t[k] == s[i + 1 + k];
        CharNotInLines(t, c);
    }
  }

  /** The first `c` of `a + [c] + b` is right after `a` when `a` lacks `c`. */
  lemma {:induction false} IndexOfAfter(a: string, c: char, b: string)
    requires c !in a
    ensures IndexOf(a + [c] + b, c) == Some(|a|)
  {
    if a != [] {
      IndexOfAfter(a[1..], c, b);
      assert (a + [c] + b)[1..] == a[1..] + [c] + b;
    }
  }

  /** Joined and newline-terminated lines: the first line, a `\n`, and the
      remaining lines joined and terminated the same way. */
  lemma JoinTerminated(ls: seq<string>)
    requires |ls| >= 1
    ensures Join(ls, "\n") + "\n" ==
      ls[0] + "\n" + (if |ls| == 1 then "" else Join(ls[1..], "\n") + "\n")
  {
  }

  /** Splitting newline-terminated joined lines gives the lines back, as
      long as none holds a `\n` or ends in a carriage return. */
  lemma {:induction false} LinesOfJoined(ls: seq<string>)
    requires |ls| >= 1
    requires forall k :: 0 <= k < |ls| ==> '\n' !in ls[k] && !EndsWithCR(ls[k])
    ensures Lines(Join(ls, "\n") + "\n") == ls
    decreases |ls|
  {
    var rest := if |ls| == 1 then "" else Join(ls[1..], "\n") + "\n";
    JoinTerminated(ls);
    LinesStep(ls[0], rest);
    assert DropCR(ls[0]) == ls[0];
    if |ls| > 1 {
      LinesOfJoined(ls[1..]);
    }
    assert ls == [ls[0]] + ls[1..];
  }

  /** Splitting off the first line. */
  lemma LinesStep(l: string, rest: string)
    requires '\n' !in l
    ensures Lines(l + "\n" + rest) == [DropCR(l)] + Lines(rest)
  {
    var s := l + "\n" + rest;
    IndexOfAfter(l, '\n', rest);
    assert s[..|l|] == l;
    assert s[|l| + 1..] == rest;
  }

  /** A newline-terminated join of lines without `p` has no `p`, for a
      pattern that holds no `\n`. */
  lemma {:induction false} NoneInJoined(ls: seq<string>, p: string)
    requires |p| > 0 && '\n' !in p
    requires forall l :: l in ls ==> !Contains(l, p)
    ensures !Contains(Join(ls, "\n") + "\n", p)
    decreases |ls|
  {
    if |ls| == 0 {
      assert p[0] !in "\n";
      NoneWithoutChar("\n", p, 0);
    } else {
      JoinTerminated(ls);
      var rest := if |ls| == 1 then "" else Join(ls[1..], "\n") + "\n";
      if |ls| > 1 {
        NoneInJoined(ls[1..], p);
      } else {
        assert !Contains(rest, p);
      }
      NoneAcrossSeparator(ls[0], '\n', rest, p);
      assert ls[0] + "\n" + rest == ls[0] + ['\n'] + rest;
    }
  }

  /** Dropping blank lines twice is dropping them once. */
  lemma {:induction false} KeepNonBlankIdempotent(ls: seq<string>)
    ensures KeepNonBlank(KeepNonBlank(ls)) == KeepNonBlank(ls)
  {
    if ls != [] {
      KeepNonBlankIdempotent(ls[1..]);
      if !IsBlank(ls[0]) {
        assert ([ls[0]] + KeepNonBlank(ls[1..]))[1..] == KeepNonBlank(ls[1..]);
      }
    }
  }

  // ---------------------------------------------------------------------
  // Trim, case, replace, length

  /** `s.trim()`: `s` without leading and trailing whitespace. */
  function Trim(s: string): (r: string)
    ensures r == [] <==> IsBlank(s)
    ensures r != [] ==> !IsWhitespace(r[0]) && !IsWhitespace(r[|r| - 1])
    ensures s == [] || (!IsWhitespace(s[0]) && !IsWhitespace(s[|s| - 1])) ==> r == s
  {
    var t := s[LeadingSpace(s)..];
    var n := TrailingSpace(t);
    assert IsBlank(t) ==> IsBlank(s);
    t[..|t| - n]
  }

  /** The number of whitespace characters `s` starts with. */
  function LeadingSpace(s: string): (n: nat)
    ensures n <= |s|
    ensures forall k :: 0 <= k < n ==> IsWhitespace(s[k])
    ensures n < |s| ==> !IsWhitespace(s[n])
  {
    if s == [] || !IsWhitespace(s[0]) then 0 else 1 + LeadingSpace(s[1..])
  }

  /** The number of whitespace characters `s` ends with. */
  function TrailingSpace(s: string): (n: nat)
    ensures n <= |s|
    ensures forall k :: |s| - n <= k < |s| ==> IsWhitespace(s[k])
    ensures n < |s| ==> !IsWhitespace(s[|s| - n - 1])
  {
    if s == [] || !IsWhitespace(s[|s| - 1]) then 0 else 1 + TrailingSpace(s[..|s| - 1])
  }

  /** Lower-cases an ASCII letter; other characters are unchanged. */
  function LowerChar(c: char): (r: char)
    ensures 'A' <= c <= 'Z' ==> 'a' <= r <= 'z' && r as int - 'a' as int == c as int - 'A' as int
    ensures !('A' <= c <= 'Z') ==> r == c
  {
    if 'A' <= c <= 'Z' then (c as int - 'A' as int + 'a' as int) as char else c
  }

  /** `s.to_lowercase()`, restricted to ASCII letters. */
  function ToLower(s: string): (r: string)
    ensures |r| == |s|
    ensures forall k :: 0 <= k < |s| ==> r[k] == LowerChar(s[k])
  {
    if s == [] then [] else [LowerChar(s[0])] + ToLower(s[1..])
  }

  /** `s.replace(p, t)`: every occurrence of `p`, taken left to right
      without overlap, replaced by `t`. */
  function Replace(s: string, p: string, t: string): string
    requires |p| > 0
    decreases |s|
  {
    if |s| < |p| then s
    else if s[..|p|] == p then t + Replace(s[|p|..], p, t)
    else [s[0]] + Replace(s[1..], p, t)
  }

  /** Replacing a pattern that does not occur changes nothing. */
  lemma {:induction false} ReplaceAbsent(s: string, p: string, t: string)
    requires |p| > 0 && !Contains(s, p)
    ensures Replace(s, p, t) == s
    decreases |s|
  {
    if |s| >= |p| {
      assert !IsAt(s, p, 0);
      NoneInSlice(s, p, 1, |s|);
      assert s[1..|s|] == s[1..];
      ReplaceAbsent(s[1..], p, t);
    }
  }

  /** A head `a` in which no occurrence of `p` starts is copied unchanged. */
  lemma {:induction false} ReplaceSkipsHead(a: string, b: string, p: string, t: string)
    requires |p| > 0
    requires forall i :: 0 <= i < |a| ==> !IsAt(a + b, p, i)
    ensures Replace(a + b, p, t) == a + Replace(b, p, t)
    decreases |a|
  {
    if a != [] {
      var s := a + b;
      var s' := a[1..] + b;
      assert s' == s[1..];
      forall i | 0 <= i < |a[1..]| ensures !IsAt(s', p, i) {
        assert !IsAt(s, p, i + 1);
        if i + |p| <= |s'| {
          assert s'[i..i + |p|] == s[i + 1..i + 1 + |p|];
        }
      }
      ReplaceSkipsHead(a[1..], b, p, t);
      if |s| < |p| {
        assert Replace(b, p, t) == b;
      } else {
        assert !IsAt(s, p, 0);
        calc {
          Replace(s, p, t);
          [s[0]] + Replace(s', p, t);
          [a[0]] + (a[1..] + Replace(b, p, t));
          { assert a == [a[0]] + a[1..]; }
          a + Replace(b, p, t);
        }
      }
    } else {
      assert a + b == b;
    }
  }

  /** A match at the very start is replaced and the search resumes after it. */
  lemma ReplaceHere(p: string, b: string, t: string)
    requires |p| > 0
    ensures Replace(p + b, p, t) == t + Replace(b, p, t)
  {
    var s := p + b;
    assert s[..|p|] == p && s[|p|..] == b;
  }

  /** A pattern at the start of a string, followed by a tail without it, is
      replaced once. */
  lemma ReplaceLeading(p: string, tail: string, t: string)
    requires |p| > 0 && !Contains(tail, p)
    ensures Replace(p + tail, p, t) == t + tail
  {
    ReplaceHere(p, tail, t);
    ReplaceAbsent(tail, p, t);
  }

  /** Replacing the only occurrence of `p`, which sits between `a` and `b`. */
  lemma ReplaceOnce(a: string, b: string, p: string, t: string)
    requires |p| > 0 && !Contains(b, p)
    requires forall i :: 0 <= i < |a| ==> !IsAt(a + p + b, p, i)
    ensures Replace(a + p + b, p, t) == a + t + b
  {
    ReplaceOnceHead(a, b, p, t);
    ReplaceLeading(p, b, t);
    assert a + (t + b) == a + t + b;
  }

  /** The head of ReplaceOnce is copied. */
  lemma ReplaceOnceHead(a: string, b: string, p: string, t: string)
    requires |p| > 0
    requires forall i :: 0 <= i < |a| ==> !IsAt(a + p + b, p, i)
    ensures Replace(a + p + b, p, t) == a + Replace(p + b, p, t)
  {
    var pb := p + b;
    assert a + p + b == a + pb;
    ReplaceSkipsHead(a, pb, p, t);
  }

  /** No occurrence of `p` starts inside `a` when `a` lacks `p` and the
      first character of `b` is not in `p`. */
  lemma NoOccurrenceStartsIn(a: string, b: string, p: string)
    requires !Contains(a, p)
    requires |b| > 0 && b[0] !in p
    ensures forall i :: 0 <= i < |a| ==> !IsAt(a + b, p, i)
  {
    forall i | 0 <= i < |a| ensures !IsAt(a + b, p, i) {
      if i + |p| <= |a| {
        assert (a + b)[i..i + |p|] == a[i..i + |p|];
        assert !IsAt(a, p, i);
      } else if i + |p| <= |a + b| {
        assert (a + b)[i..i + |p|][|a| - i] == b[0];
      }
    }
  }

  /** Bytes taken by a character in UTF-8. */
  function Utf8Width(c: char): nat {
    if c as int < 0x80 then 1
    else if c as int < 0x800 then 2
    else if c as int < 0x1_0000 then 3
    else 4
  }

  /** `String::len`: the UTF-8 byte length of `s`. */
  function Utf8Len(s: string): (n: nat)
    ensures |s| <= n <= 4 * |s|
  {
    if s == [] then 0 else Utf8Width(s[0]) + Utf8Len(s[1..])
  }
}

=== FILE: utils.dfy ===
/** The variable-name validator and the similarity filter behind the
    "Did you mean" suggestions (src/utils.rs). */
module Utils {
  import opened Common
  import opened Text

  const EmptyNameMessage := "Variable name cannot be empty"
  const SpaceInNameMessage := "Variable name cannot contain spaces"

  /** `validate_var_name`: a name is rejected when empty, then when it holds a
      space; nothing else about it is checked. */
  function ValidateVarName(name: string): (r: Result<(), string>)
    ensures r.Ok? <==> name != [] && ' ' !in name
    ensures name == [] ==> r == Err(EmptyNameMessage)
    ensures name != [] && ' ' in name ==> r == Err(SpaceInNameMessage)
  {
    if name == [] then Err(EmptyNameMessage)
    else if ' ' in name then Err(SpaceInNameMessage)
    else Ok(())
  }

  /** The example names the source's unit tests use. */
  lemma ValidatorExamples()
    ensures ValidateVarName("_HIDDEN").Ok? && ValidateVarName("A").Ok?
    ensures ValidateVarName("MY_VAR_123").Ok?
    ensures ValidateVarName(" LEADING_SPACE") == Err(SpaceInNameMessage)
    ensures ValidateVarName("TRAILING_SPACE ") == Err(SpaceInNameMessage)
    ensures ValidateVarName("MULTIPLE   SPACES") == Err(SpaceInNameMessage)
    ensures ValidateVarName("") == Err(EmptyNameMessage)
  {
    assert " LEADING_SPACE"[0] == ' ';
    assert "TRAILING_SPACE "[14] == ' ';
    assert "MULTIPLE   SPACES"[8] == ' ';
  }

  /** A similarity score between two strings. The source uses a ratio from
      an external crate; the model leaves the score open. */
  type Similarity = (string, string) -> real

  /** A candidate is similar enough when the score of the lower-cased pair
      is strictly above the threshold. */
  predicate Passes(target: string, candidate: string, threshold: real, score: Similarity) {
    score(ToLower(target), ToLower(candidate)) > threshold
  }

  /** `find_similar_string`: the candidates whose score passes the threshold,
      in the order given. */
  function FindSimilarString(target: string, candidates: seq<string>, threshold: real,
                             score: Similarity): (r: seq<string>)
    ensures IsSubsequence(r, candidates)
    ensures forall x :: (multiset(r)[x] ==
      if Passes(target, x, threshold, score) then multiset(candidates)[x] else 0)
  {
    if candidates == [] then []
    else
      var rest := FindSimilarString(target, candidates[1..], threshold, score);
      assert candidates == [candidates[0]] + candidates[1..];
      if Passes(target, candidates[0], threshold, score) then
        assert ([candidates[0]] + rest)[1..] == rest;
        [candidates[0]] + rest
      else
        rest
  }

  /** Every element of the result passes, and every passing candidate is in it. */
  lemma SimilarMembership(target: string, candidates: seq<string>, threshold: real,
                          score: Similarity, x: string)
    ensures x in FindSimilarString(target, candidates, threshold, score) <==>
      x in candidates && Passes(target, x, threshold, score)
  {
    var r := FindSimilarString(target, candidates, threshold, score);
    assert x in r <==> multiset(r)[x] > 0;
    assert x in candidates <==> multiset(candidates)[x] > 0;
  }

  /** A candidate equal to the target up to case is kept by a score that
      rates equal strings 1, at any threshold below 1. */
  lemma ExactMatchKept(target: string, candidates: seq<string>, threshold: real,
                       score: Similarity, x: string)
    requires forall s :: score(s, s) == 1.0
    requires threshold < 1.0
    requires x in candidates && ToLower(x) == ToLower(target)
    ensures x in FindSimilarString(target, candidates, threshold, score)
  {
    assert score(ToLower(target), ToLower(x)) == 1.0;
    SimilarMembership(target, candidates, threshold, score, x);
  }

  /** Lower-casing the four names of the case-insensitive example. */
  lemma LowerExampleNames()
    ensures ToLower("path") == "path" && ToLower("PATH") == "path"
    ensures ToLower("HOME") == "home" && ToLower("USER") == "user"
  {
    var a, b, c, d := ToLower("path"), ToLower("PATH"), ToLower("HOME"), ToLower("USER");
    assert a[0] == 'p' && a[1] == 'a' && a[2] == 't' && a[3] == 'h';
    assert b[0] == 'p' && b[1] == 'a' && b[2] == 't' && b[3] == 'h';
    assert c[0] == 'h' && c[1] == 'o' && c[2] == 'm' && c[3] == 'e';
    assert d[0] == 'u' && d[1] == 's' && d[2] == 'e' && d[3] == 'r';
  }

  /** The case-insensitive test: target "path" against PATH, HOME and USER at
      0.8 keeps exactly "PATH", for a score rating equal strings 1 and the
      other two names at most 0.8. */
  lemma CaseInsensitiveExample(score: Similarity)
    requires forall s :: score(s, s) == 1.0
    requires score("path", "home") <= 0.8 && score("path", "user") <= 0.8
    ensures FindSimilarString("path", ["PATH", "HOME", "USER"], 0.8, score) == ["PATH"]
  {
    LowerExampleNames();
    var c := ["PATH", "HOME", "USER"];
    assert c[1..] == ["HOME", "USER"] && c[1..][1..] == ["USER"] && c[1..][1..][1..] == [];
    assert Passes("path", "PATH", 0.8, score);
    assert !Passes("path", "HOME", 0.8, score) && !Passes("path", "USER", 0.8, score);
    assert FindSimilarString("path", ["USER"], 0.8, score) == [];
    assert FindSimilarString("path", ["HOME", "USER"], 0.8, score) == [];
  }

  /** A target no candidate passes against gives an empty result. */
  lemma NoMatchIsEmpty(target: string, candidates: seq<string>, threshold: real, score: Similarity)
    requires forall k :: 0 <= k < |candidates| ==> !Passes(target, candidates[k], threshold, score)
    ensures FindSimilarString(target, candidates, threshold, score) == []
  {
    var r := FindSimilarString(target, candidates, threshold, score);
    if r != [] {
      SimilarMembership(target, candidates, threshold, score, r[0]);
    }
  }
}

=== FILE: variables.dfy ===
/** Process-scope variable operations (src/variables.rs): formatted
    listing, set, delete, partial update and lookup. Only the non-global
    paths are modelled; the environment is an explicit map. */
module Variables {
  import opened Common
  import opened Text

  const EmptyKeyMessage := "Variable key cannot be empty"
  const InvalidCharsMessage := "Invalid characters in variable name"
  const NoValueMessage := "Cannot update variable without a value"

  /** The message for deleting a variable that is not set. */
  function MissingMessage(name: string): string {
    "Variable '" + name + "' does not exist"
  }

  // ---------------------------------------------------------------------
  // Listing

  /** One entry in `format`: `{name}` is replaced by the key first, then
      `{value}` by the value, in the result of the first replacement. */
  function FormatEntry(format: string, key: string, value: string): string {
    Replace(Replace(format, "{name}", key), "{value}", value)
  }

  /** `print_env`: the lines written for a snapshot of the environment, one
      per entry and in snapshot order, each ended by `\n`. */
  function PrintEnv(format: string, snapshot: seq<Entry>): (out: seq<string>)
    ensures |out| == |snapshot|
    ensures forall k :: 0 <= k < |out| ==>
      out[k] == FormatEntry(format, snapshot[k].0, snapshot[k].1) + "\n"
  {
    if snapshot == [] then []
    else [FormatEntry(format, snapshot[0].0, snapshot[0].1) + "\n"] + PrintEnv(format, snapshot[1..])
  }

  /** A format without either placeholder prints itself for every entry. */
  lemma FormatWithoutPlaceholders(format: string, key: string, value: string)
    requires !Contains(format, "{name}") && !Contains(format, "{value}")
    ensures FormatEntry(format, key, value) == format
  {
    ReplaceAbsent(format, "{name}", key);
    ReplaceAbsent(format, "{value}", value);
  }

  /** `{name}` is substituted first, so a key that itself reads `{value}`
      is then replaced by the value. */
  lemma NameSubstitutedFirst(value: string)
    ensures FormatEntry("{name}", "{value}", value) == value
  {
    assert "{name}"[..6] == "{name}";
    assert "{name}"[6..] == "";
    assert Replace("{name}", "{name}", "{value}") == "{value}";
    assert "{value}"[..7] == "{value}";
    assert "{value}"[7..] == "";
  }

  // ---------------------------------------------------------------------
  // Set, delete, update

  /** What `set_variable` accepts as a key: non-empty, without `=` or NUL. */
  predicate AcceptedKey(key: string) {
    key != [] && '=' !in key && '\0' !in key
  }

  /** `set_variable` (non-global, no process): an empty key, then a key
      with `=` or NUL, is refused with the environment unchanged; otherwise
      the key is bound to the value and nothing else changes. */
  function SetVariable(env: Env, key: string, value: string): (r: Effect)
    ensures r.status.Ok? <==> AcceptedKey(key)
    ensures key == [] ==> r.status == Err(InvalidInput(EmptyKeyMessage))
    ensures key != [] && !AcceptedKey(key) ==> r.status == Err(InvalidInput(InvalidCharsMessage))
    ensures r.status.Err? ==> r.env == env
    ensures r.status.Ok? ==> key in r.env && r.env[key] == value
    ensures r.status.Ok? ==> r.env.Keys == env.Keys + {key}
    ensures forall k :: k != key && k in env ==> k in r.env && r.env[k] == env[k]
  {
    if key == [] then Effect(env, Err(InvalidInput(EmptyKeyMessage)))
    else if '=' in key || '\0' in key then Effect(env, Err(InvalidInput(InvalidCharsMessage)))
    else Effect(env[key := value], Ok(()))
  }

  /** `delete_variable` (non-global): a set variable is removed; an unset
      one is an error and nothing changes. */
  function DeleteVariable(env: Env, name: string): (r: Effect)
    ensures r.status.Ok? <==> name in env
    ensures r.status.Err? ==> r == Effect(env, Err(InvalidInput(MissingMessage(name))))
    ensures name !in r.env
    ensures r.env.Keys == env.Keys - {name}
    ensures forall k :: k in r.env ==> r.env[k] == env[k]
  {
    if name in env then Effect(env - {name}, Ok(()))
    else Effect(env, Err(InvalidInput(MissingMessage(name))))
  }

  /** `update_variable` (non-global): with nothing to change it succeeds at
      once. Otherwise the value used is the new one or else the old key's
      current one (an error when there is neither); a rename first deletes
      the old key, then the value is set under the new key. */
  function UpdateVariable(env: Env, oldKey: string, newKey: Option<string>, newValue: Option<string>): (r: Effect)
    ensures newKey.None? && newValue.None? ==> r == Effect(env, Ok(()))
    // Changing the value only is setting it.
    ensures (newKey.None? || newKey == Some(oldKey)) && newValue.Some? ==>
      r == SetVariable(env, oldKey, newValue.value)
    // A rename of a set variable moves its value (or the new value) to the new key.
    ensures newKey.Some? && newKey.value != oldKey && oldKey in env && AcceptedKey(newKey.value) ==>
      r.status.Ok? && r.env == (env - {oldKey})[newKey.value := newValue.GetOr(env[oldKey])]
    // A rename to a refused key still deletes the old one.
    ensures newKey.Some? && newKey.value != oldKey && oldKey in env && !AcceptedKey(newKey.value) ==>
      r.status.Err? && r.env == env - {oldKey}
    // Naming the same key without a value sets it again to its current value.
    ensures newKey == Some(oldKey) && newValue.None? && oldKey in env ==>
      r == SetVariable(env, oldKey, env[oldKey])
    // Without any value there is nothing to set.
    ensures newKey.Some? && newValue.None? && oldKey !in env ==>
      r == Effect(env, Err(InvalidInput(NoValueMessage)))
    // Renaming an unset variable to a new value fails at the delete.
    ensures newKey.Some? && newKey.value != oldKey && newValue.Some? && oldKey !in env ==>
      r == Effect(env, Err(InvalidInput(MissingMessage(oldKey))))
  {
    if newKey.None? && newValue.None? then Effect(env, Ok(()))
    else
      var current := if oldKey in env then Some(env[oldKey]) else None;
      var keyToUse := newKey.GetOr(oldKey);
      match newValue.Or(current)
      case None => Effect(env, Err(InvalidInput(NoValueMessage)))
      case Some(value) =>
        if newKey.Some? && newKey.value != oldKey then
          var deleted := DeleteVariable(env, oldKey);
          if deleted.status.Err? then deleted
          else SetVariable(deleted.env, keyToUse, value)
        else SetVariable(env, keyToUse, value)
  }

  /** Renaming a variable to a free key and back restores the environment. */
  lemma RenameRoundTrip(env: Env, a: string, b: string)
    requires a in env && b !in env && a != b
    requires AcceptedKey(a) && AcceptedKey(b)
    ensures var there := UpdateVariable(env, a, Some(b), None);
      there.status.Ok? && UpdateVariable(there.env, b, Some(a), None) == Effect(env, Ok(()))
  {
    var there := UpdateVariable(env, a, Some(b), None);
    assert there.env == (env - {a})[b := env[a]];
    var back := UpdateVariable(there.env, b, Some(a), None);
    assert back.env == (there.env - {b})[a := env[a]];
    assert back.env == env;
  }

  // ---------------------------------------------------------------------
  // Lookup

  /** `find_variable`: the first snapshot entry whose key is `key`. */
  function FindVariable(snapshot: seq<Entry>, key: string): (r: Option<Entry>)
    ensures r.None? <==> forall k :: 0 <= k < |snapshot| ==> snapshot[k].0 != key
    ensures r.Some? ==> r.value.0 == key
    ensures r.Some? ==> exists k :: (0 <= k < |snapshot| && snapshot[k] == r.value
      && forall j :: 0 <= j < k ==> snapshot[j].0 != key)
  {
    if snapshot == [] then None
    else if snapshot[0].0 == key then Some(snapshot[0])
    else
      var r := FindVariable(snapshot[1..], key);
      if r.Some? then
        var k :| (0 <= k < |snapshot[1..]| && snapshot[1..][k] == r.value
          && forall j :: 0 <= j < k ==> snapshot[1..][j].0 != key);
        assert snapshot[k + 1] == r.value;
        r
      else r
  }

  /** The snapshot lists exactly the entries of `env`. */
  predicate Lists(snapshot: seq<Entry>, env: Env) {
    && (forall k :: 0 <= k < |snapshot| ==> snapshot[k].0 in env && env[snapshot[k].0] == snapshot[k].1)
    && (forall key :: key in env ==> exists k :: 0 <= k < |snapshot| && snapshot[k].0 == key)
  }

  /** On a snapshot of `env`, the lookup finds a key exactly when it is set,
      and with its value. */
  lemma FindVariableAgrees(snapshot: seq<Entry>, env: Env, key: string)
    requires Lists(snapshot, env)
    ensures FindVariable(snapshot, key) == if key in env then Some((key, env[key])) else None
  {
    var r := FindVariable(snapshot, key);
    if r.Some? {
      var k :| 0 <= k < |snapshot| && snapshot[k] == r.value;
      assert snapshot[k].0 in env;
    }
  }
}
